=== FILE: README.md ===
# Chromatic Aberration: a Dafny model

Chromatic Aberration is a p5.js sketch. It draws three copies of a grid structure in red, green and blue, with additive blending, so that where they overlap they produce colour-fringe effects. Sliders move the copies:
- `position` spreads the side copies apart horizontally;
- `scale` sets the cell size;
- `lineThickness` sets the stroke width in refactor/sketch.js; the main sketch shows the slider but never passes its value to drawing;
- `yOffset` shifts the side copies vertically in opposite directions;
- `rotation` turns the side copies in opposite directions.

Each slider can be animated by an automation control. The control has a speed box, a play/pause button and a back-and-forth direction.

This project models the computational core of that sketch as pure Dafny functions and proves properties about them. It covers three source files.

**sketch.js** (the main sketch):
- `structureFactory`;
- the placement math of `updateStructure`;
- the per-frame automation loop of `draw`;
- `createAutomationControls` with its duplicate guard;
- `togglePlayPause`;
- the dropdown labels;
- the slider table that `createControlPanel` builds.

**refactor/sketch.js** (the earlier version):
- `updateStructure`, which builds the three structures directly at their top-left corners and only for the three drawable types;
- `updateSliderValues`;
- `setup`;
- `onStructureChange`;
- `draw`.

**structures.js**:
- the structure record;
- `drawGrid`;
- the three draw routines (`LineStructure`, `CircleStructure`, `DiagonalLineStructure`).

p5's drawing surface is modelled as a small command interpreter (module `Drawing`):
- `push`, `pop`, `translate`, `rotate`, `stroke`, `fill`, `noStroke`, `strokeWeight`, `line` and `ellipse` are commands;
- running a command list yields the primitives drawn, each paired with the transform and style in force at the time;
- each draw routine is a function returning its command list, with the loop bodies unrolled as recursive functions in loop order.

Modules:
- `Wrappers`: Option and Result.
- `P5`: `map`, `radians`, `constrain`, `PI`, and JavaScript's truncating `%` by 360.
- `Drawing`: the canvas interpreter and its push/pop laws.
- `Structures`: structures.js.
- `Scene`: placement and the factory from sketch.js.
- `Controls`: the control panel from sketch.js.
- `Automation`: the automation step of sketch.js's `draw`.
- `MainLoop`: one `draw()` call of sketch.js, from the panel to the placed structures, and runs of frames interleaved with play/pause clicks.
- `RefactorScene`: refactor/sketch.js.

Facts about the code the model relies on:
- The factory in sketch.js knows four type names ("line", "circle", "diagonal", "sineWave"). structures.js defines classes for only the first three. `config.cellCount` is fixed at 10.
- The automation reverses a slider's direction when the unclamped value is `>=` its maximum or `<=` its minimum. So a step that lands exactly on a bound also reverses, and the slider is then clamped.

## Model

| member | source | states |
|---|---|---|
| P5.Remap | sketch.js:204-208 | p5 `map`: the ends of the source range map to the ends of the target range |
| P5.RemapWithin | sketch.js:204-208 | inputs inside the source range land inside the target range, ascending or descending |
| P5.Radians | sketch.js:217-223 | degrees to radians: 0 stays 0, the sign is kept, and 180 maps to PI |
| P5.Constrain | sketch.js:82 | the result lies in [low, high]; it is the input when the input is inside, low below, high above |
| P5.JsRemainder360 | sketch.js:53 | JavaScript `x % 360`: in [0,360) for non-negative x, in (−360,0] for non-positive x, the identity on (−360,360), and differing from x by a whole number of turns |
| Drawing.Step | structures.js:32-55 | one p5 call: push saves the current state, pop restores the last saved one, translate/rotate append to the transform, only draw calls emit a primitive |
| Drawing.Run | structures.js:32-55 | commands that neither push nor pop leave the saved-state stack untouched |
| Drawing.NetTranslationDefined | structures.js:33-46 | a transform reduces to an offset exactly when all its rotations are by zero |
| Drawing.NetTranslationAppend | structures.js:33-46 | the offsets of concatenated transforms add up |
| Drawing.Bracketed | structures.js:32-55 | push, style/transform commands, a block that restores the canvas, more such commands, pop: the canvas (transform, style, stack) ends as it began |
| Drawing.RestoresConcat | sketch.js:29-35 | blocks that each restore the canvas restore it in sequence |
| Drawing.RunDraws | structures.js:49-54 | drawing a list of shapes emits exactly those shapes, in order, in the current state, and changes nothing |
| Drawing.Placed | structures.js:33-46 | a mark's absolute shape is its local shape moved by the net translation, defined exactly when the transform has no non-zero rotation |
| Structures.LatticeFrom | structures.js:49-54 | the line loop from iteration i emits two segments per remaining iteration |
| Structures.LatticeFromAt | structures.js:49-54 | iteration j emits the vertical line x = j·cs and then the horizontal line y = j·cs, both spanning the grid |
| Structures.LineLattice | structures.js:49-54 | LineStructure emits 2(n+1) segments, vertical and horizontal line i at positions 2i and 2i+1, all inside [0, cs·n]² when cs ≥ 0 |
| Structures.CellRun | structures.js:84-88 | the inner loop of row i emits cells (i, j), (i, j+1), … in order |
| Structures.CellRows | structures.js:83-89 | the nested loops from row i emit (n−i)·n cells |
| Structures.CellRowsAt | structures.js:83-89 | cell (a, b) is emitted at position a·n + b |
| Structures.DotShape | structures.js:85-87 | the circle of cell (i, j) is centred at ((i+½)cs, (j+½)cs) with diameter 0.8·cs and, for cs > 0, clear of the cell's border |
| Structures.CircleGrid | structures.js:83-89 | CircleStructure emits n² circles; the one for cell (i, j) is centred at ((i+½)cs, (j+½)cs) with diameter 0.8·cs and lies strictly inside its cell when cs > 0 |
| Structures.CellWithin | structures.js:117-123 | each cell's circle or diagonal lies inside the grid square [0, cs·n]² |
| Structures.CirclesWithin | structures.js:83-89 | every circle lies inside the grid square |
| Structures.DiagonalGrid | structures.js:117-123 | DiagonalLineStructure emits n² segments; the one for cell (i, j) runs from its top-left to its bottom-right corner and lies inside the grid |
| Structures.CenteringIsTranslation | structures.js:33-46 | translate to the grid centre, rotate by zero, translate back by half the extent: the net effect is a translation by the origin (x, y) |
| Structures.DrawCommands | structures.js:31-56 | a draw routine exists exactly for the variants other than SineWave; what running it does is stated by DrawMarks and DrawRestores |
| Structures.GridFrom | structures.js:14-19 | the `drawGrid` loop from iteration i emits two segments per remaining iteration |
| Structures.GridIsMovedLattice | structures.js:11-21 | `drawGrid` draws LineStructure's lattice moved to the absolute origin (x, y) |
| Structures.RunApplies | structures.js:33-46 | the transform commands append their steps to the current transform and draw nothing |
| Structures.RunStyling | structures.js:47-48 | the style commands set stroke and weight (or fill and no stroke for circles) and draw nothing |
| Structures.DrawRestores | structures.js:31-56 | every draw routine leaves transform, style and saved stack as they were |
| Structures.GridRestores | structures.js:11-21 | `drawGrid` leaves the canvas as it was |
| Structures.DrawMarks | structures.js:65-91 | a routine's primitives are its shapes, in loop order, drawn under the centring transform and the routine's style |
| Structures.LineMatchesGrid | structures.js:31-56 | with no outer transform, LineStructure's marks land exactly where `drawGrid` draws its lines |
| Scene.Factory | sketch.js:244-256 | succeeds exactly for the four type names, builds the variant of that name, stores the geometry and colour unchanged, and otherwise fails with "Unknown structure type: " + name |
| Scene.FactoryRoundTrip | sketch.js:244-256 | the factory builds each variant back from its own name |
| Scene.UpdateStructure | sketch.js:189-239 | three placed structures for a known type (else the factory's error), coloured red, green and blue, of the selected variant, cell size 40·scale, 10 cells, origin −cs·10/2 |
| Scene.UnknownTypeLeavesNothing | sketch.js:189-190 | the list is cleared before the factory throws, so an unknown type leaves no structures |
| Scene.FractionLaws | sketch.js:204-208 | the left fraction is 0.25 + v/200 and the right is 0.75 − v/200; they sum to 1; the middle one is 0.5; for v in [0,100] both stay in [0.25, 0.75] |
| Scene.MirrorSymmetry | sketch.js:210-223 | the side centres are symmetric about (width/2, height/2) with offsets ∓height·yOffset, and their angles are opposite; the middle structure is centred and unrotated |
| Scene.PositionEndpoints | sketch.js:204-208 | at position 0 the sides are at 25% and 75%, at 100 they have swapped, at 50 all three coincide at the centre |
| Scene.SidesStayInside | sketch.js:204-212 | for positions in [0,100] the side centres stay within [0.25·width, 0.75·width] |
| Scene.GridCentred | sketch.js:226-234 | each grid's origin is minus half its extent, so the grid is centred on its placement point; for the middle structure the grid square starts at (cx − half, cy − half) |
| Scene.PlacedCommands | sketch.js:29-35 | a placed structure is drawable exactly when it is not a SineWave |
| Scene.FrameCommands | sketch.js:29-35 | a frame is drawable exactly when none of its structures is a SineWave |
| Scene.FrameRestores | sketch.js:29-35 | a whole frame leaves the canvas's transform, style and stack as it found them |
| Controls.CreateAutomationControls | sketch.js:147-176 | registers a fresh automation (speed 10, paused, direction +1) unless one exists, in which case nothing changes; sliders and other automations are untouched |
| Controls.CreateIdempotent | sketch.js:149-151 | creating the controls twice for the same id equals creating them once |
| Controls.RotationDuplicateIsNoOp | sketch.js:116-119 | the rotation row's second creation call changes nothing |
| Controls.ControlPanelContents | sketch.js:103-120 | the built panel holds the five sliders at their defaults, exactly one fresh automation per slider, and is valid |
| Controls.ControlPanelIs | sketch.js:111-120 | the construction loop yields the default slider and automation registries |
| Controls.DefaultsValid | sketch.js:6-13 | every default value lies inside its slider's range |
| Controls.TogglePlayPause | sketch.js:178-182 | flips only `isPlaying` of that automation and keeps everything else; fails (the source's TypeError) when the id has no automation |
| Controls.ToggleTwice | sketch.js:178-182 | toggling twice restores the panel |
| Controls.ToggleKeepsValid | sketch.js:178-182 | toggling keeps the panel valid |
| Controls.ToggleFlipsLabel | sketch.js:181 | the button caption becomes "Pause" exactly when it was "Play" |
| Controls.Capitalize | sketch.js:96 | keeps the length and every character after the first; a lower-case first letter becomes its capital (lower-casing it gives it back), any other first character is kept |
| Controls.CapitalizeIdempotent | sketch.js:96 | capitalising twice equals capitalising once |
| Controls.CapitalizeRoundTrip | sketch.js:96 | a name not starting with a capital is recovered from its label |
| Controls.DropdownOptions | sketch.js:95-98 | one option per type, in order, labelled with the capitalised name and valued with the name itself |
| Controls.StructureDropdownLabels | sketch.js:95-98 | the labels are Line, Circle, Diagonal and SineWave |
| Automation.ScaleFactor | sketch.js:57-72 | speed factors 10, 0.2, 0.4 and 0.01 for position, scale, lineThickness and yOffset, 1 otherwise, always positive |
| Automation.Advance | sketch.js:42-82 | a paused slider is untouched; otherwise the range, play flag and speed are kept, and the value is clamped into range. Rotation adds 3·speed% and wraps by the JS remainder without touching the direction. Other sliders add the bounce step, and the direction flips exactly when the unclamped value reaches or passes a bound |
| Automation.RotationWraps | sketch.js:49-53 | on 0..360 with non-negative speed the rotation lands in [0,360), equals the plain sum below 360, and differs from it by whole turns |
| Automation.RotationNegativeSticksAtZero | sketch.js:51-53 | from 0 with a negative speed the rotation stays at 0 |
| Automation.BounceStepSize | sketch.js:56 | a bounce step moves in the automation's direction by at least 0.1·factor, and by speed%·factor when that is larger |
| Automation.BounceReflects | sketch.js:74-82 | landing strictly inside moves by exactly one step and keeps the direction; reaching a bound pins the value there and reverses |
| Automation.BounceTurnsAtTop | sketch.js:76-79 | after hitting the top, the next step goes down |
| Automation.Tick | sketch.js:39-85 | one frame advances each slider with an automation by that automation alone; the other sliders and all keys are unchanged |
| Automation.TickKeepsValid | sketch.js:39-85 | a frame keeps every slider in range and every direction ±1 |
| Automation.PausedTickIsIdentity | sketch.js:42 | with every automation paused, a frame changes nothing |
| Automation.Frames | sketch.js:26-88 | any number of frames from a valid panel keeps it valid and keeps its keys |
| MainLoop.Draw | sketch.js:26-88 | a `draw()` call first draws the structures already placed (the commands of the frame; drawable exactly when none is a SineWave, and then restoring the canvas), then ticks the panel, then rebuilds the structures from the ticked sliders for a known type, or fails with the factory's message for an unknown one |
| MainLoop.DrawChains | sketch.js:26-88 | from a valid world with a known type, a call leaves a valid world with three structures whose next frame draws exactly when the type is not "sineWave" |
| MainLoop.PausedDrawIsStable | sketch.js:39-87 | with every automation paused, the panel is unchanged and a second call rebuilds exactly the same world |
| MainLoop.Replay | sketch.js:39-87 | a run of frames and play/pause clicks fails exactly when a click names a slider without an automation; otherwise it keeps the panel valid, keeps every slider and automation, and never changes a slider's range |
| MainLoop.Session | sketch.js:20-24 | the sketch's own panel after any run of frames and clicks: defined exactly when every click names one of the five sliders, and then valid, holding the four sliders `updateStructure` reads (position, scale, yOffset, rotation), with the position range 0..100 |
| MainLoop.PlayingMovesPosition | sketch.js:167-182 | without a click a frame leaves the position at 0; after a click on its play button one frame moves it to 1 and the automation is playing |
| MainLoop.FramesAreReplay | sketch.js:39-87 | `n` frames of the automation step are exactly the run of `n` frame events with no click |
| MainLoop.MinMaxKept | sketch.js:82 | frames never change a slider's range, as a consequence of the same fact about every run of events |
| MainLoop.PositionStaysInRange | sketch.js:82 | whatever frames and clicks happen, the position slider stays in [0,100] |
| MainLoop.AutomatedPositionsStayInside | sketch.js:204-212 | whatever frames and play/pause clicks happen, the side structures stay within the middle half of the width and the middle one stays at width/2 |
| RefactorScene.KindOf | refactor/sketch.js:99-107 | exactly "line", "circle" and "diagonal" build a variant (never a SineWave) whose name is the given one |
| RefactorScene.Build | refactor/sketch.js:72-109 | three structures for the three known types, none (and no error) otherwise; coloured red, green, blue; cell size 40·cellScale, 10 cells; each grid centred on its fraction of the width |
| RefactorScene.UpdateStructure | refactor/sketch.js:72-109 | rebuilds only the structure list; type, cell scale, offset and thickness globals are kept |
| RefactorScene.UpdateSliderValues | refactor/sketch.js:111-146 | copies position, scale and thickness into the globals; afterwards every cell size is 40 times the scale slider |
| RefactorScene.Setup | refactor/sketch.js:10-49 | starts with type "line", cell scale 1 and thickness 2, and three structures |
| RefactorScene.OnStructureChange | refactor/sketch.js:62-66 | stores the selected type and keeps the stored cell scale; three structures exactly for a known type |
| RefactorScene.Frame | refactor/sketch.js:51-60 | a frame refreshes scale and thickness from the sliders and always yields drawable commands, which leave the canvas as they found it |
| RefactorScene.Sequence | refactor/sketch.js:55-57 | drawable exactly when no structure is a SineWave |
| RefactorScene.SequenceRestores | refactor/sketch.js:55-57 | the routines of a whole list, run one after another, restore the canvas |
| RefactorScene.DrawableOnly | refactor/sketch.js:99-107 | a list built from one of the three names holds no SineWave |
| RefactorScene.HorizontalLayout | refactor/sketch.js:79-85 | the side grids' centres add up to the width, the middle grid is centred, and the left one is at (0.25 + v/200)·width |
| RefactorScene.VerticalLayout | refactor/sketch.js:86-90 | the middle grid is centred vertically; the first sits height·yOffset above it and the third the same distance below |
| RefactorScene.UpdateIdempotent | refactor/sketch.js:72-73 | rebuilding with unchanged inputs changes nothing |
| RefactorScene.ScaleAppliesOnlyAfterSliderUpdate | refactor/sketch.js:69-75 | `setup` builds with cell size 40 whatever the scale slider shows; this lasts only until the first `draw()`, whose `updateSliderValues` makes every cell size 40·scale |
| RefactorScene.TypeChangeUsesStoredScale | refactor/sketch.js:62-66 | a dropdown change rebuilds with the cell scale stored by the last `updateSliderValues` |
| RefactorScene.TypeChangeThenFrame | refactor/sketch.js:51-66 | the frame that follows a dropdown change draws the new type at cell size 40 times the scale slider |
| RefactorScene.FirstFrameScale | refactor/sketch.js:25-54 | with the sliders `setup` creates (scale 0.8), `setup` builds at cell size 40 and the first frame rebuilds at cell size 32 |
| RefactorScene.AgreesWithMainSketch | refactor/sketch.js:84-90 | with the same sliders, each grid's top-left corner equals the main sketch's centre point plus its centred origin, with the same variant, colour and cells |
| RefactorScene.SineWaveBuildsNothing | refactor/sketch.js:99-107 | "sineWave", which the main sketch accepts, builds nothing in this version |

## Left out

- Canvas output, the DOM and event wiring: sliders, dropdown, buttons, `select`, `createDiv`, `createSpan`, `text`, `background` and `blendMode` are not modelled. Widgets are reduced to the values they hold, and drawing to the list of primitives and their state.
- Floating point: every number is an exact real. IEEE rounding, NaN from `parseFloat` of a non-numeric speed box, and the slider's snapping of a set value to its step are not modelled.
- Drawing.NetTranslation: a rotation by a non-zero angle is kept symbolic and not evaluated, because the model has no trigonometry. Placement through such rotations is stated only as the transform list.
- `PI` is a decimal constant; only its positivity is used.
- The `index` / `rotationSlider` branch of the three draw routines: no caller passes `index`, so the angle is always 0 and `rotationSlider` is never read. The model fixes the angle at 0.
- SineWaveStructure: the factory names it, but its class is not in structures.js. Its draw routine is therefore None, and a frame holding one has no commands.
- structures.js reads a global `lineThickness` that sketch.js never declares (refactor/sketch.js does). The thickness is a parameter of every draw routine.
- MainLoop.Draw: the stroke weight is a free parameter. With only the files modelled here, the main sketch's Line and Diagonal routines would stop with a ReferenceError on the undeclared `lineThickness`. The model assumes a value is supplied from outside these files, and does not tie it to the thickness slider.
- The p5 lifecycle (`setup`/`draw` scheduling, `redraw`, `noLoop`, window size) is left out. Width and height are parameters.
- Controls.Capitalize: `toUpperCase` is modelled on ASCII letters only. Other characters are kept, which covers all four type names.
- The alpha value 100 in `rgba(…, 100)` is stored as written. How the browser interprets it is not modelled.
- P5.JsRemainder360: JavaScript `%` is modelled only for the modulus 360, the only one the sketches use.
- Structures.Structure: the cell count is a natural number. A negative or fractional count makes the source loops run zero times or round, and this is not modelled.
- Automation.Tick: it requires every automation to have a slider. The source looks the slider up only for a playing automation (sketch.js:42-46), so JavaScript throws a TypeError only when an automation without a slider is playing; a paused one is skipped harmlessly. The requires also excludes that harmless paused case. `createControlPanel` never builds such a panel, because `createAutomationControls` always runs after `sliders[id] = slider` (sketch.js:132, 144), and MainLoop.Session shows the sketch's own panel stays in this state whatever frames and clicks happen.
- The automation key mapping `sliderId.replace("Automation", "")` is modelled by keying both registries by the slider id. An id that itself contains "Automation" is not modelled, and none in the table does.
- Text labels of slider values (`toFixed` formatting in refactor/sketch.js) are not modelled.

=== FILE: automation.dfy ===
/**
 * The automation step of the main sketch's `draw()`: every frame, each playing
 * automation moves its slider. The rotation slider advances continuously and
 * wraps at 360 degrees; every other slider bounces between its bounds,
 * reversing direction whenever a step reaches or passes one of them.
 */
module Automation {
  import opened P5
  import opened Controls

  /** The per-slider speed multiplier of the `switch`: sliders not listed get 1. */
  function ScaleFactor(id: string): (f: real)
    ensures f > 0.0
    ensures id == "position" ==> f == 10.0
    ensures id == "scale" ==> f == 0.2
    ensures id == "lineThickness" ==> f == 0.4
    ensures id == "yOffset" ==> f == 0.01
    ensures id != "position" && id != "scale" && id != "lineThickness" && id != "yOffset" ==> f == 1.0
  {
    match id
    case "position" => 10.0
    case "scale" => 0.2
    case "lineThickness" => 0.4
    case "yOffset" => 0.01
    case _ => 1.0
  }

  function Max(a: real, b: real): real {
    if a >= b then a else b
  }

  /** The signed step a bouncing slider takes: the speed percentage, at least 0.1, times direction and factor. */
  function BounceStep(id: string, a: AutomationControl): real {
    Max(a.speed / 100.0, 0.1) * a.direction as real * ScaleFactor(id)
  }

  /** The rotation slider's step: 100% speed is 3 degrees per frame. */
  function RotationStep(a: AutomationControl): real {
    3.0 * (a.speed / 100.0)
  }

  /** A slider together with its automation, as one frame leaves them. */
  datatype Update = Update(slider: Slider, automation: AutomationControl)

  /**
   * One frame for one slider. A paused automation leaves both alone. The
   * rotation slider adds its step, takes the JavaScript remainder by 360 and
   * is clamped to its range; its direction is never touched. Any other slider
   * adds its bounce step; the direction is reversed when the unclamped value
   * reaches or passes either bound, and the slider is set to the clamped value.
   */
  function Advance(id: string, s: Slider, a: AutomationControl): (u: Update)
    ensures !a.isPlaying ==> u == Update(s, a)
    ensures u.slider.min == s.min && u.slider.max == s.max
    ensures a.isPlaying && s.min <= s.max ==> s.min <= u.slider.value <= s.max
    ensures u.automation.isPlaying == a.isPlaying && u.automation.speed == a.speed
    ensures id == "rotation" ==> u.automation.direction == a.direction
    ensures a.isPlaying && id == "rotation" ==>
      u.slider.value == Constrain(JsRemainder360(s.value + RotationStep(a)), s.min, s.max)
    ensures a.isPlaying && id != "rotation" ==>
      u.slider.value == Constrain(s.value + BounceStep(id, a), s.min, s.max)
    ensures a.isPlaying && id != "rotation" && a.direction != 0 ==>
      (u.automation.direction == -a.direction <==>
         (s.value + BounceStep(id, a) >= s.max || s.value + BounceStep(id, a) <= s.min))
    ensures a.isPlaying && id != "rotation" && !(s.value + BounceStep(id, a) >= s.max || s.value + BounceStep(id, a) <= s.min)
      ==> u.automation.direction == a.direction
  {
    if !a.isPlaying then Update(s, a)
    else if id == "rotation" then
      var value := JsRemainder360(s.value + RotationStep(a));
      Update(s.(value := Constrain(value, s.min, s.max)), a)
    else
      var value := s.value + BounceStep(id, a);
      var direction := if value >= s.max || value <= s.min then a.direction * -1 else a.direction;
      Update(s.(value := Constrain(value, s.min, s.max)), a.(direction := direction))
  }

  /**
   * With the rotation slider's range 0..360 and a non-negative speed, the
   * slider moves forward by the step, wrapping back by whole turns, and stays
   * below 360.
   */
  lemma RotationWraps(s: Slider, a: AutomationControl)
    requires s.min == 0.0 && s.max == 360.0 && 0.0 <= s.value <= 360.0
    requires a.isPlaying && a.speed >= 0.0
    ensures var v := Advance("rotation", s, a).slider.value;
      && 0.0 <= v < 360.0
      && (s.value + RotationStep(a) < 360.0 ==> v == s.value + RotationStep(a))
      && ((s.value + RotationStep(a) - v) / 360.0).Floor as real == (s.value + RotationStep(a) - v) / 360.0
  {
  }

  /**
   * A negative speed does not turn the rotation backwards past zero: the
   * remainder of a negative sum is negative and the clamp pins it at 0.
   */
  lemma RotationNegativeSticksAtZero(s: Slider, a: AutomationControl)
    requires s.min == 0.0 && s.max == 360.0 && s.value == 0.0
    requires a.isPlaying && a.speed < 0.0
    ensures Advance("rotation", s, a).slider.value == 0.0
  {
    assert s.value + RotationStep(a) < 0.0;
  }

  /**
   * The bounce step always moves in the automation's direction, by at least
   * 0.1 times the slider's factor, even when the typed speed is lower.
   */
  lemma BounceStepSize(id: string, a: AutomationControl)
    requires a.direction == 1 || a.direction == -1
    ensures a.direction == 1 ==> BounceStep(id, a) >= 0.1 * ScaleFactor(id)
    ensures a.direction == -1 ==> BounceStep(id, a) <= -0.1 * ScaleFactor(id)
    ensures a.speed / 100.0 >= 0.1 ==> BounceStep(id, a) == a.speed / 100.0 * a.direction as real * ScaleFactor(id)
  {
    var m := Max(a.speed / 100.0, 0.1);
    var f := ScaleFactor(id);
    assert m >= 0.1;
    if a.direction == 1 {
      assert BounceStep(id, a) == m * f;
      MulMono(0.1, m, f);
    } else {
      assert BounceStep(id, a) == -(m * f);
      MulMono(0.1, m, f);
    }
  }

  lemma MulMono(a: real, b: real, f: real)
    requires a <= b
    requires f > 0.0
    ensures a * f <= b * f
  {
  }

  /**
   * A bouncing slider that lands strictly inside its range moves by exactly
   * one step and keeps its direction; one that reaches a bound is pinned to
   * that bound and turns round.
   */
  lemma BounceReflects(id: string, s: Slider, a: AutomationControl)
    requires id != "rotation" && a.isPlaying
    requires a.direction == 1 || a.direction == -1
    requires s.min <= s.value <= s.max
    ensures var u := Advance(id, s, a);
      var target := s.value + BounceStep(id, a);
      && (s.min < target < s.max ==> u.slider.value == target && u.automation.direction == a.direction)
      && (target >= s.max ==> u.slider.value == s.max && u.automation.direction == -a.direction)
      && (target <= s.min ==> u.slider.value == s.min && u.automation.direction == -a.direction)
  {
  }

  /**
   * Starting inside its range and moving upwards, a bouncing slider that hits
   * the top turns round, and its next step goes down.
   */
  lemma BounceTurnsAtTop(id: string, s: Slider, a: AutomationControl)
    requires id != "rotation" && a.isPlaying && a.direction == 1
    requires s.min < s.max && s.min <= s.value <= s.max
    requires s.value + BounceStep(id, a) >= s.max
    ensures var u := Advance(id, s, a);
      u.slider.value == s.max && u.automation.direction == -1 && BounceStep(id, u.automation) < 0.0
  {
    var u := Advance(id, s, a);
    BounceStepSize(id, u.automation);
  }

  /**
   * The automation loop of one frame: every slider with a playing automation
   * advances; sliders without one, or with a paused one, keep their value.
   * Each automation touches only its own slider, so the iteration order of
   * the registry does not matter.
   */
  function Tick(p: Panel): (r: Panel)
    requires Attached(p)
    ensures r.sliders.Keys == p.sliders.Keys && r.automations.Keys == p.automations.Keys
    ensures forall id :: id in p.automations ==>
      r.sliders[id] == Advance(id, p.sliders[id], p.automations[id]).slider
      && r.automations[id] == Advance(id, p.sliders[id], p.automations[id]).automation
    ensures forall id :: id in p.sliders && id !in p.automations ==> r.sliders[id] == p.sliders[id]
  {
    Panel(
      map id | id in p.sliders :: if id in p.automations then Advance(id, p.sliders[id], p.automations[id]).slider else p.sliders[id],
      map id | id in p.automations :: Advance(id, p.sliders[id], p.automations[id]).automation)
  }

  /** A frame keeps every slider in range and every direction ±1. */
  lemma TickKeepsValid(p: Panel)
    requires Valid(p)
    ensures Valid(Tick(p))
  {
    var r := Tick(p);
    forall id | id in r.automations
      ensures r.automations[id].direction == 1 || r.automations[id].direction == -1
    {
      var a := p.automations[id];
      var u := Advance(id, p.sliders[id], a);
      if a.isPlaying && id != "rotation" {
        assert u.automation.direction == a.direction || u.automation.direction == -a.direction;
      }
    }
  }

  /** With every automation paused a frame changes nothing. */
  lemma PausedTickIsIdentity(p: Panel)
    requires Attached(p)
    requires forall id :: id in p.automations ==> !p.automations[id].isPlaying
    ensures Tick(p) == p
  {
    var r := Tick(p);
    assert r.sliders == p.sliders;
    assert r.automations == p.automations;
  }

  /** `n` frames in a row, from a valid panel: the panel stays valid and keeps its sliders and automations. */
  function Frames(p: Panel, n: nat): (r: Panel)
    requires Valid(p)
    ensures Valid(r)
    ensures r.sliders.Keys == p.sliders.Keys && r.automations.Keys == p.automations.Keys
    decreases n
  {
    if n == 0 then p
    else
      TickKeepsValid(p);
      Frames(Tick(p), n - 1)
  }
}

=== FILE: controls.dfy ===
/**
 * The main sketch's control panel as state: the sliders (value and range),
 * the automation controls attached to them (speed, play flag, direction),
 * their creation with its duplicate guard, the play/pause toggle, and the
 * labels of the structure dropdown. Widgets, layout and events are not
 * modelled; only the values they hold.
 */
module Controls {
  import opened Wrappers

  datatype Slider = Slider(value: real, min: real, max: real)

  /**
   * An automation control: `speed` is the number typed into the speed box
   * (percent), `direction` the back-and-forth flag, +1 or −1.
   */
  datatype AutomationControl = AutomationControl(speed: real, isPlaying: bool, direction: int)

  /**
   * The `sliders` registry. The source keeps one object keyed by slider id and
   * by slider id + "Automation"; here the two kinds of entry are two maps, both
   * keyed by the slider id.
   */
  datatype Panel = Panel(sliders: map<string, Slider>, automations: map<string, AutomationControl>)

  /** One row of the slider table: id, range and the default value it starts at. */
  datatype SliderSpec = SliderSpec(id: string, min: real, max: real, initial: real)

  /** The text the speed box starts with, "10". */
  const DefaultSpeed: real := 10.0

  /** A freshly created automation: speed 10, paused, moving upwards. */
  const FreshAutomation: AutomationControl := AutomationControl(DefaultSpeed, false, 1)

  /** The slider table with `config.defaultValues`, in creation order. */
  const SliderData: seq<SliderSpec> := [
    SliderSpec("position", 0.0, 100.0, 0.0),
    SliderSpec("scale", 0.5, 2.0, 0.8),
    SliderSpec("lineThickness", 1.0, 10.0, 2.0),
    SliderSpec("yOffset", -0.02, 0.02, 0.0),
    SliderSpec("rotation", 0.0, 360.0, 0.0)
  ]

  /**
   * `createAutomationControls`: registers a fresh automation for `id` unless
   * one already exists, in which case nothing changes.
   */
  function CreateAutomationControls(p: Panel, id: string): (r: Panel)
    ensures id in r.automations
    ensures id in p.automations ==> r == p
    ensures id !in p.automations ==> r.automations[id] == FreshAutomation
    ensures r.sliders == p.sliders
    ensures r.automations.Keys == p.automations.Keys + {id}
    ensures forall k :: k in p.automations ==> r.automations[k] == p.automations[k]
  {
    if id in p.automations then p
    else p.(automations := p.automations[id := FreshAutomation])
  }

  /** Creating the controls a second time for the same id changes nothing. */
  lemma CreateIdempotent(p: Panel, id: string)
    ensures CreateAutomationControls(CreateAutomationControls(p, id), id) == CreateAutomationControls(p, id)
  {
  }

  /** `createSliderGroup`: registers the slider at its default value, then its automation controls. */
  function AddSliderGroup(p: Panel, spec: SliderSpec): Panel {
    CreateAutomationControls(p.(sliders := p.sliders[spec.id := Slider(spec.initial, spec.min, spec.max)]), spec.id)
  }

  /**
   * The loop of `createControlPanel` over the slider table: every row gets a
   * slider group, and the rotation row gets a second automation call.
   */
  function AddAll(p: Panel, specs: seq<SliderSpec>): Panel
    decreases |specs|
  {
    if |specs| == 0 then p
    else
      var grouped := AddSliderGroup(p, specs[0]);
      var next := if specs[0].id == "rotation" then CreateAutomationControls(grouped, specs[0].id) else grouped;
      AddAll(next, specs[1..])
  }

  /** The second automation call the rotation row makes is a no-op: its group already created one. */
  lemma RotationDuplicateIsNoOp(p: Panel, spec: SliderSpec)
    ensures CreateAutomationControls(AddSliderGroup(p, spec), spec.id) == AddSliderGroup(p, spec)
  {
  }

  /** The slider registry the table defines, each slider at its default value. */
  const DefaultSliders: map<string, Slider> := map[
    "position" := Slider(0.0, 0.0, 100.0),
    "scale" := Slider(0.8, 0.5, 2.0),
    "lineThickness" := Slider(2.0, 1.0, 10.0),
    "yOffset" := Slider(0.0, -0.02, 0.02),
    "rotation" := Slider(0.0, 0.0, 360.0)]

  /** One fresh automation per slider of the table. */
  const DefaultAutomations: map<string, AutomationControl> := map[
    "position" := FreshAutomation,
    "scale" := FreshAutomation,
    "lineThickness" := FreshAutomation,
    "yOffset" := FreshAutomation,
    "rotation" := FreshAutomation]

  /** The panel `createControlPanel` builds from an empty registry. */
  function ControlPanel(): Panel {
    AddAll(Panel(map[], map[]), SliderData)
  }

  /** Every automation belongs to a slider: the state in which the frame step cannot fail. */
  predicate Attached(p: Panel) {
    p.automations.Keys <= p.sliders.Keys
  }

  /** Every automation belongs to a slider, every slider is within its range, every direction is ±1. */
  ghost predicate Valid(p: Panel) {
    && Attached(p)
    && (forall id :: id in p.sliders ==> p.sliders[id].min <= p.sliders[id].value <= p.sliders[id].max)
    && (forall id :: id in p.automations ==> p.automations[id].direction == 1 || p.automations[id].direction == -1)
  }

  /**
   * The control panel holds one slider per table row at its default value,
   * and one paused automation per slider, speed 10, direction +1; it is Valid.
   */
  lemma ControlPanelContents()
    ensures var p := ControlPanel();
      && p.sliders == DefaultSliders
      && p.automations.Keys == p.sliders.Keys
      && (forall id :: id in p.automations ==> p.automations[id] == FreshAutomation)
      && Valid(p)
  {
    ControlPanelIs();
    DefaultsValid();
  }

  /** The registry the construction loop ends with. */
  lemma ControlPanelIs()
    ensures ControlPanel() == Panel(DefaultSliders, DefaultAutomations)
  {
    var specs := SliderData;
    var p0 := Panel(map[], map[]);
    var p1 := AddSliderGroup(p0, specs[0]);
    assert p1 == Panel(map["position" := Slider(0.0, 0.0, 100.0)], map["position" := FreshAutomation]);
    var p2 := AddSliderGroup(p1, specs[1]);
    assert p2.sliders == p1.sliders["scale" := Slider(0.8, 0.5, 2.0)];
    assert p2.automations == p1.automations["scale" := FreshAutomation];
    var p3 := AddSliderGroup(p2, specs[2]);
    assert p3.sliders == p2.sliders["lineThickness" := Slider(2.0, 1.0, 10.0)];
    assert p3.automations == p2.automations["lineThickness" := FreshAutomation];
    var p4 := AddSliderGroup(p3, specs[3]);
    assert p4.sliders == p3.sliders["yOffset" := Slider(0.0, -0.02, 0.02)];
    assert p4.automations == p3.automations["yOffset" := FreshAutomation];
    var p5 := AddSliderGroup(p4, specs[4]);
    assert p5.sliders == p4.sliders["rotation" := Slider(0.0, 0.0, 360.0)];
    assert p5.automations == p4.automations["rotation" := FreshAutomation];
    assert p5 == Panel(DefaultSliders, DefaultAutomations);
    AddAllStep(p0, specs);
    AddAllStep(p1, specs[1..]);
    AddAllStep(p2, specs[2..]);
    AddAllStep(p3, specs[3..]);
    AddAllStep(p4, specs[4..]);
    RotationDuplicateIsNoOp(p4, specs[4]);
    assert specs[1..][1..] == specs[2..] && specs[2..][1..] == specs[3..] && specs[3..][1..] == specs[4..];
    assert specs[4..][1..] == [];
  }

  lemma DefaultsValid()
    ensures Valid(Panel(DefaultSliders, DefaultAutomations))
  {
    forall id | id in DefaultSliders
      ensures DefaultSliders[id].min <= DefaultSliders[id].value <= DefaultSliders[id].max
    {
      assert id == "position" || id == "scale" || id == "lineThickness" || id == "yOffset" || id == "rotation";
    }
  }

  /** One iteration of the table loop. */
  lemma AddAllStep(p: Panel, specs: seq<SliderSpec>)
    requires |specs| > 0
    ensures AddAll(p, specs) == AddAll(
      if specs[0].id == "rotation" then CreateAutomationControls(AddSliderGroup(p, specs[0]), specs[0].id) else AddSliderGroup(p, specs[0]),
      specs[1..])
  {
  }

  /**
   * `togglePlayPause`: flips `isPlaying` of the slider's automation; the
   * source throws a TypeError (None here) when the id has no automation.
   */
  function TogglePlayPause(p: Panel, id: string): (r: Option<Panel>)
    ensures r.Some? <==> id in p.automations
    ensures r.Some? ==> r.value.sliders == p.sliders && r.value.automations.Keys == p.automations.Keys
    ensures r.Some? ==> r.value.automations[id].isPlaying == !p.automations[id].isPlaying
    ensures r.Some? ==> r.value.automations[id].speed == p.automations[id].speed
                        && r.value.automations[id].direction == p.automations[id].direction
    ensures r.Some? ==> forall k :: k in p.automations && k != id ==> r.value.automations[k] == p.automations[k]
  {
    if id !in p.automations then None
    else
      var a := p.automations[id];
      Some(p.(automations := p.automations[id := a.(isPlaying := !a.isPlaying)]))
  }

  /** Toggling twice restores the panel exactly. */
  lemma ToggleTwice(p: Panel, id: string)
    requires id in p.automations
    ensures TogglePlayPause(TogglePlayPause(p, id).value, id) == Some(p)
  {
    var q := TogglePlayPause(p, id).value;
    var r := TogglePlayPause(q, id).value;
    assert r.automations == p.automations;
  }

  /** Toggling keeps the panel Valid. */
  lemma ToggleKeepsValid(p: Panel, id: string)
    requires Valid(p) && id in p.automations
    ensures Valid(TogglePlayPause(p, id).value)
  {
  }

  /** The play/pause button's caption after a toggle. */
  function ButtonLabel(a: AutomationControl): string {
    if a.isPlaying then "Pause" else "Play"
  }

  /** A toggle flips the button caption between "Play" and "Pause". */
  lemma ToggleFlipsLabel(p: Panel, id: string)
    requires id in p.automations
    ensures var after := TogglePlayPause(p, id).value.automations[id];
      (ButtonLabel(after) == "Pause") <==> (ButtonLabel(p.automations[id]) == "Play")
  {
  }

  // ---------------------------------------------------------------------------
  // Dropdown labels

  /** `toUpperCase` of one character, on the ASCII letters only. */
  function UpperChar(c: char): char {
    if 'a' <= c <= 'z' then (c as int - 32) as char else c
  }

  /** The inverse on the ASCII letters. */
  function LowerChar(c: char): char {
    if 'A' <= c <= 'Z' then (c as int + 32) as char else c
  }

  /** `type.charAt(0).toUpperCase() + type.slice(1)`: the first character capitalised, the rest kept. */
  function Capitalize(s: string): (r: string)
    ensures |r| == |s|
    ensures forall k :: 1 <= k < |s| ==> r[k] == s[k]
    ensures |s| > 0 ==> !('a' <= r[0] <= 'z')
    ensures |s| > 0 && !('a' <= s[0] <= 'z') ==> r[0] == s[0]
    ensures |s| > 0 && 'a' <= s[0] <= 'z' ==> 'A' <= r[0] <= 'Z' && LowerChar(r[0]) == s[0]
  {
    if |s| == 0 then "" else [UpperChar(s[0])] + s[1..]
  }

  /** Lower-cases the first character back. */
  function Uncapitalize(s: string): string {
    if |s| == 0 then "" else [LowerChar(s[0])] + s[1..]
  }

  /** Capitalising is idempotent. */
  lemma CapitalizeIdempotent(s: string)
    ensures Capitalize(Capitalize(s)) == Capitalize(s)
  {
  }

  /** A name that starts with a lower-case letter (or with no letter) is recovered from its label. */
  lemma CapitalizeRoundTrip(s: string)
    requires |s| > 0 ==> !('A' <= s[0] <= 'Z')
    ensures Uncapitalize(Capitalize(s)) == s
  {
    if |s| > 0 {
      assert Uncapitalize(Capitalize(s)) == [LowerChar(UpperChar(s[0]))] + s[1..];
    }
  }

  /** The dropdown's options: (label, value) pairs, one per type name, in order. */
  function DropdownOptions(types: seq<string>): (r: seq<(string, string)>)
    ensures |r| == |types|
    ensures forall k :: 0 <= k < |r| ==> r[k].1 == types[k] && r[k].0 == Capitalize(types[k])
  {
    seq(|types|, k requires 0 <= k < |types| => (Capitalize(types[k]), types[k]))
  }

  /** The labels the main sketch's dropdown shows. */
  lemma StructureDropdownLabels()
    ensures DropdownOptions(["line", "circle", "diagonal", "sineWave"])
         == [("Line", "line"), ("Circle", "circle"), ("Diagonal", "diagonal"), ("SineWave", "sineWave")]
  {
    var r := DropdownOptions(["line", "circle", "diagonal", "sineWave"]);
    assert r[0].0 == "Line" by { assert Capitalize("line") == [UpperChar('l')] + "ine"; }
    assert r[1].0 == "Circle" by { assert Capitalize("circle") == [UpperChar('c')] + "ircle"; }
    assert r[2].0 == "Diagonal" by { assert Capitalize("diagonal") == [UpperChar('d')] + "iagonal"; }
    assert r[3].0 == "SineWave" by { assert Capitalize("sineWave") == [UpperChar('s')] + "ineWave"; }
  }
}

=== FILE: drawing.dfy ===
/**
 * The part of p5's drawing surface the structures use, as data: a canvas holds
 * the current transform and style plus the stack that `push()` saves onto and
 * `pop()` restores from; a draw routine is a list of commands, and running it
 * yields the primitives it emitted, each with the state it was drawn in.
 * Pixels, blending and the actual trigonometry of `rotate` are not modelled.
 */
module Drawing {
  import opened Wrappers

  datatype Point = Point(x: real, y: real)

  /** An RGBA colour as the sketches write it, e.g. "rgba(255, 0, 0, 100)". */
  datatype Color = Rgba(r: nat, g: nat, b: nat, a: nat)

  /** `stroke(0)`: grey level 0, fully opaque. */
  const Black: Color := Rgba(0, 0, 0, 255)

  /** The two primitives the structures emit: `line(x1, y1, x2, y2)` and the circle `ellipse(x, y, d)`. */
  datatype Shape = Segment(from: Point, to: Point) | Ellipse(center: Point, diameter: real)

  function Shift(p: Point, d: Point): Point {
    Point(p.x + d.x, p.y + d.y)
  }

  /** A shape moved by the offset `d`. */
  function Move(s: Shape, d: Point): Shape {
    match s
    case Segment(a, b) => Segment(Shift(a, d), Shift(b, d))
    case Ellipse(c, dia) => Ellipse(Shift(c, d), dia)
  }

  /** Every shape of a list moved by the same offset. */
  function MoveAll(shapes: seq<Shape>, d: Point): (r: seq<Shape>)
    ensures |r| == |shapes|
    ensures forall k :: 0 <= k < |r| ==> r[k] == Move(shapes[k], d)
  {
    seq(|shapes|, k requires 0 <= k < |shapes| => Move(shapes[k], d))
  }

  /** One step of the current transformation: `translate(dx, dy)` or `rotate(angle)`. */
  datatype Elem = Translate(dx: real, dy: real) | Rotate(angle: real)

  /**
   * The net offset of a transform whose rotations are all by zero: such a
   * transform is a pure translation. A rotation by a non-zero angle is not
   * evaluated (the model has no trigonometry) and yields None.
   */
  function NetTranslation(t: seq<Elem>): Option<Point>
    decreases |t|
  {
    if |t| == 0 then Some(Point(0.0, 0.0))
    else
      match NetTranslation(t[1..])
      case None => None
      case Some(rest) =>
        match t[0]
        case Translate(dx, dy) => Some(Point(dx + rest.x, dy + rest.y))
        case Rotate(a) => if a == 0.0 then Some(rest) else None
  }

  /** No step of the transform rotates. */
  predicate RotationFree(t: seq<Elem>) {
    forall k :: 0 <= k < |t| ==> t[k].Translate? || t[k].angle == 0.0
  }

  /** A transform is evaluated to an offset exactly when none of its steps rotates by a non-zero angle. */
  lemma {:induction false} NetTranslationDefined(t: seq<Elem>)
    ensures NetTranslation(t).Some? <==> RotationFree(t)
    decreases |t|
  {
    if |t| > 0 {
      NetTranslationDefined(t[1..]);
      assert RotationFree(t) <==> (t[0].Translate? || t[0].angle == 0.0) && RotationFree(t[1..]) by {
        if RotationFree(t) {
          forall k | 0 <= k < |t[1..]|
            ensures t[1..][k].Translate? || t[1..][k].angle == 0.0
          {
            assert t[1..][k] == t[k + 1];
          }
        }
      }
    }
  }

  /** `stroke(c)`, `fill(c)` or their `noStroke()` / `noFill()` counterparts. */
  datatype Paint = NoPaint | Paint(color: Color)

  datatype Style = Style(stroke: Paint, fill: Paint, weight: real)

  /** What `push()` saves and `pop()` restores. */
  datatype State = State(transform: seq<Elem>, style: Style)

  datatype Canvas = Canvas(current: State, saved: seq<State>)

  datatype Command =
    | Push
    | Pop
    | Apply(elem: Elem)
    | SetStroke(strokePaint: Paint)
    | SetFill(fillPaint: Paint)
    | SetWeight(strokeWeight: real)
    | Draw(shape: Shape)

  /** A primitive as emitted, with the transform and style in force when it was drawn. */
  datatype Mark = Mark(shape: Shape, state: State)

  datatype Outcome = Outcome(canvas: Canvas, marks: seq<Mark>)

  /**
   * One command. `pop()` without a matching `push()` only prints a warning in
   * p5 and changes nothing.
   */
  function Step(c: Canvas, cmd: Command): (o: Outcome)
    ensures |o.marks| == (if cmd.Draw? then 1 else 0)
    ensures cmd.Draw? ==> o.marks[0] == Mark(cmd.shape, c.current)
    ensures cmd.Push? ==> o.canvas.saved == c.saved + [c.current] && o.canvas.current == c.current
    ensures cmd.Pop? && |c.saved| > 0 ==> o.canvas.current == c.saved[|c.saved| - 1]
    ensures !cmd.Push? && !cmd.Pop? ==> o.canvas.saved == c.saved
    ensures cmd.Apply? ==> o.canvas.current.transform == c.current.transform + [cmd.elem]
  {
    match cmd
    case Push => Outcome(Canvas(c.current, c.saved + [c.current]), [])
    case Pop =>
      if |c.saved| == 0 then Outcome(c, [])
      else Outcome(Canvas(c.saved[|c.saved| - 1], c.saved[..|c.saved| - 1]), [])
    case Apply(e) => Outcome(c.(current := c.current.(transform := c.current.transform + [e])), [])
    case SetStroke(p) => Outcome(c.(current := c.current.(style := c.current.style.(stroke := p))), [])
    case SetFill(p) => Outcome(c.(current := c.current.(style := c.current.style.(fill := p))), [])
    case SetWeight(w) => Outcome(c.(current := c.current.(style := c.current.style.(weight := w))), [])
    case Draw(s) => Outcome(c, [Mark(s, c.current)])
  }

  /** A list of commands touches neither the saved-state stack nor its depth. */
  predicate Unscoped(cmds: seq<Command>) {
    forall k :: 0 <= k < |cmds| ==> !cmds[k].Push? && !cmds[k].Pop?
  }

  /** The commands run in order; the marks are the emitted primitives, in emission order. */
  function Run(c: Canvas, cmds: seq<Command>): (o: Outcome)
    ensures Unscoped(cmds) ==> o.canvas.saved == c.saved
    decreases |cmds|
  {
    if |cmds| == 0 then Outcome(c, [])
    else
      var first := Step(c, cmds[0]);
      var rest := Run(first.canvas, cmds[1..]);
      Outcome(rest.canvas, first.marks + rest.marks)
  }

  /** Running `a + b` is running `a`, then `b` from where `a` left the canvas. */
  lemma {:induction false} RunAppend(c: Canvas, a: seq<Command>, b: seq<Command>)
    ensures Run(c, a + b).canvas == Run(Run(c, a).canvas, b).canvas
    ensures Run(c, a + b).marks == Run(c, a).marks + Run(Run(c, a).canvas, b).marks
    decreases |a|
  {
    if |a| == 0 {
      assert a + b == b;
    } else {
      assert (a + b)[0] == a[0];
      assert (a + b)[1..] == a[1..] + b;
      RunAppend(Step(c, a[0]).canvas, a[1..], b);
    }
  }

  /** Running the commands from any canvas leaves the canvas exactly as it was. */
  ghost predicate Restores(cmds: seq<Command>) {
    forall c :: Run(c, cmds).canvas == c
  }

  /**
   * The push/pop discipline: `push()`, commands that do not themselves push or
   * pop around a nested block that restores the canvas, then `pop()`, leaves
   * the transform, the style and the saved stack as they were before.
   */
  lemma {:induction false} Bracketed(pre: seq<Command>, inner: seq<Command>, post: seq<Command>)
    requires Unscoped(pre) && Unscoped(post)
    requires Restores(inner)
    ensures Restores([Push] + pre + inner + post + [Pop])
  {
    forall c: Canvas
      ensures Run(c, [Push] + pre + inner + post + [Pop]).canvas == c
    {
      RunAppend(c, [Push] + pre + inner + post, [Pop]);
      RunAppend(c, [Push] + pre + inner, post);
      RunAppend(c, [Push] + pre, inner);
      RunAppend(c, [Push], pre);
      var c1 := Run(c, [Push]).canvas;
      assert c1.saved == c.saved + [c.current];
      var c2 := Run(c1, pre).canvas;
      var c3 := Run(c2, inner).canvas;
      assert c3 == c2;
      var c4 := Run(c3, post).canvas;
      assert c4.saved == c.saved + [c.current];
      assert Run(c4, [Pop]).canvas == Step(c4, Pop).canvas;
    }
  }

  lemma RestoresEmpty()
    ensures Restores([])
  {
  }

  /** Blocks that each restore the canvas restore it in sequence too. */
  lemma RestoresConcat(a: seq<Command>, b: seq<Command>)
    requires Restores(a) && Restores(b)
    ensures Restores(a + b)
  {
    forall c: Canvas
      ensures Run(c, a + b).canvas == c
    {
      RunAppend(c, a, b);
    }
  }

  /** `Draw` commands for the shapes, in order. */
  function Draws(shapes: seq<Shape>): (r: seq<Command>)
    ensures |r| == |shapes| && Unscoped(r)
    ensures forall k :: 0 <= k < |r| ==> r[k] == Draw(shapes[k])
  {
    seq(|shapes|, k requires 0 <= k < |shapes| => Draw(shapes[k]))
  }

  /** Drawing a list of shapes emits exactly those shapes, all in the current state, and changes nothing else. */
  lemma {:induction false} RunDraws(c: Canvas, shapes: seq<Shape>)
    ensures Run(c, Draws(shapes)).canvas == c
    ensures |Run(c, Draws(shapes)).marks| == |shapes|
    ensures forall k :: 0 <= k < |shapes| ==> Run(c, Draws(shapes)).marks[k] == Mark(shapes[k], c.current)
    decreases |shapes|
  {
    if |shapes| > 0 {
      assert Draws(shapes)[1..] == Draws(shapes[1..]);
      RunDraws(c, shapes[1..]);
    }
  }

  /** A translation-only transform places a mark's shape at its absolute position; otherwise None. */
  function Placed(m: Mark): (r: Option<Shape>)
    ensures r.Some? <==> RotationFree(m.state.transform)
    ensures r.Some? ==> NetTranslation(m.state.transform).Some?
                        && r.value == Move(m.shape, NetTranslation(m.state.transform).value)
  {
    NetTranslationDefined(m.state.transform);
    match NetTranslation(m.state.transform)
    case None => None
    case Some(d) => Some(Move(m.shape, d))
  }

  /** Net translations add up along a concatenated transform. */
  lemma {:induction false} NetTranslationAppend(a: seq<Elem>, b: seq<Elem>)
    requires NetTranslation(a).Some? && NetTranslation(b).Some?
    ensures NetTranslation(a + b)
         == Some(Shift(NetTranslation(a).value, NetTranslation(b).value))
    decreases |a|
  {
    if |a| > 0 {
      var tail := NetTranslation(a[1..]);
      assert tail.Some?;
      assert (a + b)[0] == a[0];
      assert (a + b)[1..] == a[1..] + b;
      NetTranslationAppend(a[1..], b);
      var d := NetTranslation(b).value;
      assert NetTranslation(a[1..] + b) == Some(Shift(tail.value, d));
      match a[0]
      case Translate(dx, dy) =>
        assert NetTranslation(a).value == Point(dx + tail.value.x, dy + tail.value.y);
      case Rotate(angle) =>
        assert NetTranslation(a).value == tail.value;
    } else {
      assert a + b == b;
    }
  }
}

=== FILE: main_loop.dfy ===
/**
 * The main sketch's frame loop tied together: `draw()` first draws the
 * structures the previous frame placed, then lets every playing automation
 * move its slider, then rebuilds the structures from the slider values.
 */
module MainLoop {
  import opened Wrappers
  import opened Drawing
  import opened Controls
  import opened Automation
  import opened Structures
  import Scene

  /** The panel holds the four sliders `updateStructure` reads: position, scale, yOffset and rotation. */
  predicate HasSceneSliders(p: Panel) {
    "position" in p.sliders && "scale" in p.sliders && "yOffset" in p.sliders && "rotation" in p.sliders
  }

  /** The values `updateStructure` reads off those four sliders. */
  function SliderValues(p: Panel): Scene.Sliders
    requires HasSceneSliders(p)
  {
    Scene.Sliders(p.sliders["position"].value, p.sliders["scale"].value, p.sliders["yOffset"].value, p.sliders["rotation"].value)
  }

  /** The state `draw()` works on: the panel, the selected type name and the placed structures. */
  datatype World = World(panel: Panel, structureType: string, placed: seq<Scene.Placement>)

  /**
   * One call of `draw()`: first the commands that draw the structures the
   * previous call placed (None when one of them has no draw routine), then
   * the automation step, then the rebuild from the moved sliders; an unknown
   * type name throws. The stroke weight the routines read is the parameter
   * `lineThickness`: the main sketch never connects its thickness slider to it.
   */
  function Draw(w: World, lineThickness: real, width: real, height: real): (r: (Option<seq<Command>>, Result<World, string>))
    requires Attached(w.panel) && HasSceneSliders(w.panel)
    ensures r.0 == Scene.FrameCommands(w.placed, lineThickness)
    ensures r.0.Some? <==> forall k :: 0 <= k < |w.placed| ==> w.placed[k].structure.kind != SineWave
    ensures r.0.Some? ==> Restores(r.0.value)
    ensures r.1.Success? <==> w.structureType in Scene.StructureTypes
    ensures r.1.Failure? ==> r.1.error == Scene.UnknownType(w.structureType)
    ensures r.1.Success? ==>
      && r.1.value.panel == Tick(w.panel)
      && r.1.value.structureType == w.structureType
      && r.1.value.placed == Scene.UpdateStructure(SliderValues(Tick(w.panel)), w.structureType, width, height).value
  {
    var commands := Scene.FrameCommands(w.placed, lineThickness);
    assert commands.Some? ==> Restores(commands.value) by {
      if commands.Some? {
        Scene.FrameRestores(w.placed, lineThickness);
      }
    }
    var next := Tick(w.panel);
    match Scene.UpdateStructure(SliderValues(next), w.structureType, width, height)
    case Failure(e) => (commands, Failure(e))
    case Success(ps) => (commands, Success(World(next, w.structureType, ps)))
  }

  /**
   * A `draw()` call from a valid world with a known type leaves a valid world
   * that can be drawn again: three structures, and the next call draws
   * exactly when the type is not "sineWave".
   */
  lemma DrawChains(w: World, lineThickness: real, width: real, height: real)
    requires Valid(w.panel) && HasSceneSliders(w.panel)
    requires w.structureType in Scene.StructureTypes
    ensures var next := Draw(w, lineThickness, width, height).1.value;
      && Valid(next.panel) && HasSceneSliders(next.panel)
      && |next.placed| == 3
      && (Draw(next, lineThickness, width, height).0.Some? <==> w.structureType != "sineWave")
  {
    TickKeepsValid(w.panel);
    var next := Draw(w, lineThickness, width, height).1.value;
    forall k | 0 <= k < |next.placed|
      ensures Scene.TypeName(next.placed[k].structure.kind) == w.structureType
    {
    }
    if w.structureType != "sineWave" {
      forall k | 0 <= k < |next.placed|
        ensures next.placed[k].structure.kind != SineWave
      {
        assert Scene.TypeName(next.placed[k].structure.kind) != "sineWave";
      }
    } else {
      assert next.placed[0].structure.kind == SineWave;
    }
  }

  /** With every automation paused, a second `draw()` rebuilds exactly the world the first one left. */
  lemma PausedDrawIsStable(w: World, lineThickness: real, width: real, height: real)
    requires Attached(w.panel) && HasSceneSliders(w.panel)
    requires w.structureType in Scene.StructureTypes
    requires forall id :: id in w.panel.automations ==> !w.panel.automations[id].isPlaying
    ensures var next := Draw(w, lineThickness, width, height).1.value;
      && next.panel == w.panel
      && Draw(next, lineThickness, width, height).1 == Success(next)
  {
    PausedTickIsIdentity(w.panel);
  }

  /** What happens between two states of the panel: a frame of `draw()`, or a click on a slider's play/pause button. */
  datatype Event = Frame | PlayPause(id: string)

  /**
   * The panel after a run of events: a frame runs the automation step, a
   * click runs `togglePlayPause`, which throws (None) when the slider has no
   * automation. Sliders and automations are never added or removed, and no
   * slider's range changes.
   */
  function Replay(p: Panel, evs: seq<Event>): (r: Option<Panel>)
    requires Valid(p)
    ensures r.Some? <==> forall k :: 0 <= k < |evs| && evs[k].PlayPause? ==> evs[k].id in p.automations
    ensures r.Some? ==> Valid(r.value)
    ensures r.Some? ==> r.value.sliders.Keys == p.sliders.Keys && r.value.automations.Keys == p.automations.Keys
    ensures r.Some? ==> forall id :: id in p.sliders ==>
      r.value.sliders[id].min == p.sliders[id].min && r.value.sliders[id].max == p.sliders[id].max
    decreases |evs|
  {
    if |evs| == 0 then Some(p)
    else
      assert forall k :: 1 <= k < |evs| ==> evs[k] == evs[1..][k - 1];
      match evs[0]
      case Frame =>
        TickKeepsValid(p);
        Replay(Tick(p), evs[1..])
      case PlayPause(id) =>
        if id !in p.automations then None
        else
          ToggleKeepsValid(p, id);
          Replay(TogglePlayPause(p, id).value, evs[1..])
  }

  /**
   * The sketch's own panel after a session of frames and clicks. The session
   * fails exactly when a click names something other than the five sliders.
   */
  function Session(evs: seq<Event>): (r: Option<Panel>)
    ensures r.Some? <==> forall k :: 0 <= k < |evs| && evs[k].PlayPause? ==> evs[k].id in DefaultSliders
    ensures r.Some? ==> Valid(r.value) && HasSceneSliders(r.value)
    ensures r.Some? ==> r.value.sliders["position"].min == 0.0 && r.value.sliders["position"].max == 100.0
  {
    ControlPanelContents();
    Replay(ControlPanel(), evs)
  }

  /** Whatever frames and clicks happen, the position slider never leaves its range 0..100. */
  lemma PositionStaysInRange(evs: seq<Event>)
    ensures Session(evs).Some? ==> 0.0 <= Session(evs).value.sliders["position"].value <= 100.0
  {
  }

  /**
   * The automations do run: after a click on the position slider's play
   * button, one frame moves it from 0 to 1 (speed 10%, the 0.1 floor, factor
   * 10), while without the click it stays at 0.
   */
  lemma PlayingMovesPosition()
    ensures Session([Frame]).Some? && Session([Frame]).value.sliders["position"].value == 0.0
    ensures Session([PlayPause("position"), Frame]).Some?
    ensures Session([PlayPause("position"), Frame]).value.sliders["position"].value == 1.0
    ensures Session([PlayPause("position"), Frame]).value.automations["position"].isPlaying
  {
    ControlPanelContents();
    var p := ControlPanel();
    FrameFromStart(p);
    ClickFromStart(p);
  }

  /** A frame with the position automation paused leaves the position at 0. */
  lemma FrameFromStart(p: Panel)
    requires Valid(p) && "position" in p.automations
    requires p.sliders["position"].value == 0.0 && !p.automations["position"].isPlaying
    ensures Replay(p, [Frame]).Some? && Replay(p, [Frame]).value.sliders["position"].value == 0.0
  {
    assert [Frame][1..] == [];
    TickKeepsValid(p);
    assert Replay(p, [Frame]) == Replay(Tick(p), []);
  }

  /** A click on the position slider's fresh automation, then a frame, moves the position from 0 to 1. */
  lemma ClickFromStart(p: Panel)
    requires Valid(p) && "position" in p.automations
    requires p.sliders["position"] == Slider(0.0, 0.0, 100.0) && p.automations["position"] == FreshAutomation
    ensures Replay(p, [PlayPause("position"), Frame]).Some?
    ensures Replay(p, [PlayPause("position"), Frame]).value.sliders["position"].value == 1.0
    ensures Replay(p, [PlayPause("position"), Frame]).value.automations["position"].isPlaying
  {
    assert [PlayPause("position"), Frame][1..] == [Frame];
    assert [Frame][1..] == [];
    var q := TogglePlayPause(p, "position").value;
    ToggleKeepsValid(p, "position");
    assert Replay(p, [PlayPause("position"), Frame]) == Replay(q, [Frame]);
    TickKeepsValid(q);
    assert Replay(q, [Frame]) == Replay(Tick(q), []);
    PositionStep(q.sliders["position"], q.automations["position"]);
  }

  /** One playing step of a fresh position automation from 0 lands on 1. */
  lemma PositionStep(s: Slider, a: AutomationControl)
    requires s == Slider(0.0, 0.0, 100.0) && a == FreshAutomation.(isPlaying := true)
    ensures Advance("position", s, a).slider.value == 1.0
    ensures Advance("position", s, a).automation.isPlaying
  {
    assert BounceStep("position", a) == 1.0;
  }

  /** `n` frames with no click in between. */
  function FramesOnly(n: nat): (evs: seq<Event>)
    ensures |evs| == n && forall k :: 0 <= k < n ==> evs[k] == Frame
  {
    seq(n, _ => Frame)
  }

  /** `n` frames of the automation step are the run of `n` frame events: `Frames` is `Replay` without clicks. */
  lemma {:induction false} FramesAreReplay(p: Panel, n: nat)
    requires Valid(p)
    ensures Replay(p, FramesOnly(n)) == Some(Frames(p, n))
    decreases n
  {
    if n > 0 {
      var evs := FramesOnly(n);
      assert evs[1..] == FramesOnly(n - 1);
      TickKeepsValid(p);
      FramesAreReplay(Tick(p), n - 1);
    }
  }

  /** Frames never change a slider's range; this follows from the same fact about every run of events. */
  lemma MinMaxKept(p: Panel, n: nat, id: string)
    requires Valid(p) && id in p.sliders
    ensures Frames(p, n).sliders[id].min == p.sliders[id].min
    ensures Frames(p, n).sliders[id].max == p.sliders[id].max
  {
    FramesAreReplay(p, n);
  }

  /**
   * Whatever frames and clicks happen, the side structures of a world built
   * from the sketch's own panel stay between a quarter and three quarters of
   * the canvas width, and the middle one stays at half of it.
   */
  lemma AutomatedPositionsStayInside(evs: seq<Event>, typeName: string, width: real, height: real)
    requires typeName in Scene.StructureTypes && width >= 0.0
    ensures Session(evs).Some? ==>
      var ps := Scene.UpdateStructure(SliderValues(Session(evs).value), typeName, width, height).value;
      && width * 0.25 <= ps[0].centerX <= width * 0.75
      && width * 0.25 <= ps[2].centerX <= width * 0.75
      && ps[1].centerX == width / 2.0
  {
    if Session(evs).Some? {
      PositionStaysInRange(evs);
      Scene.SidesStayInside(SliderValues(Session(evs).value), typeName, width, height);
    }
  }
}

=== FILE: p5.dfy ===
/**
 * The few p5.js and JavaScript library operations the sketches rely on,
 * stated on exact reals: `map`, `radians`, `constrain`, `PI` and the
 * truncating remainder operator `%`.
 */
module P5 {

  /** p5's `PI`, JavaScript's `Math.PI` written as a decimal. The model only ever uses that it is positive. */
  const PI: real := 3.141592653589793

  /**
   * p5's `map(n, start1, stop1, start2, stop2)`: re-maps `n` linearly from one range
   * onto another, without clamping (the optional `withinBounds` is never passed).
   */
  function Remap(n: real, start1: real, stop1: real, start2: real, stop2: real): (r: real)
    requires start1 != stop1
    ensures n == start1 ==> r == start2
    ensures n == stop1 ==> r == stop2
  {
    (n - start1) / (stop1 - start1) * (stop2 - start2) + start2
  }

  /** Inputs inside the source range land inside the target range, whichever way the target runs. */
  lemma RemapWithin(n: real, start1: real, stop1: real, start2: real, stop2: real)
    requires start1 < stop1 && start1 <= n <= stop1
    ensures start2 <= stop2 ==> start2 <= Remap(n, start1, stop1, start2, stop2) <= stop2
    ensures stop2 <= start2 ==> stop2 <= Remap(n, start1, stop1, start2, stop2) <= start2
  {
    var t := (n - start1) / (stop1 - start1);
    var d := stop2 - start2;
    UnitFraction(n - start1, stop1 - start1);
    UnitScale(t, d);
    assert Remap(n, start1, stop1, start2, stop2) == t * d + start2;
  }

  /** A fraction a/b with 0 <= a <= b lies in [0, 1]. */
  lemma UnitFraction(a: real, b: real)
    requires 0.0 <= a <= b && 0.0 < b
    ensures 0.0 <= a / b <= 1.0
  {
    assert a / b * b == a;
  }

  /** Scaling d by t in [0, 1] lands between 0 and d. */
  lemma UnitScale(t: real, d: real)
    requires 0.0 <= t <= 1.0
    ensures d >= 0.0 ==> 0.0 <= t * d <= d
    ensures d <= 0.0 ==> d <= t * d <= 0.0
  {
    if d >= 0.0 {
      assert d - t * d == (1.0 - t) * d;
    } else {
      assert t * d - d == (1.0 - t) * -d;
    }
  }

  /** p5's `radians(deg)` in the default RADIANS angle mode: degrees times PI/180. */
  function Radians(deg: real): (r: real)
    ensures deg == 0.0 ==> r == 0.0
    ensures deg > 0.0 ==> r > 0.0
    ensures deg < 0.0 ==> r < 0.0
    ensures deg == 180.0 ==> r == PI
  {
    deg * (PI / 180.0)
  }

  /** p5's `constrain(n, low, high)`, which is `Math.max(Math.min(n, high), low)`. */
  function Constrain(n: real, low: real, high: real): (r: real)
    ensures low <= high ==> low <= r <= high
    ensures low <= n <= high ==> r == n
    ensures n < low ==> r == low
    ensures low <= high < n ==> r == high
  {
    var m := if n < high then n else high;
    if m > low then m else low
  }

  /** Truncation toward zero, the quotient JavaScript's `%` is built on. */
  function Trunc(x: real): (q: int)
    ensures 0.0 <= x ==> q as real <= x < q as real + 1.0
    ensures x <= 0.0 ==> q as real - 1.0 < x <= q as real
  {
    if x >= 0.0 then x.Floor else -((-x).Floor)
  }

  /**
   * JavaScript's remainder `x % 360` (the only modulus the sketches use): the
   * quotient is truncated toward zero, so the sign of the result follows the
   * dividend, unlike Dafny's Euclidean `%`.
   */
  function JsRemainder360(x: real): (r: real)
    ensures 0.0 <= x ==> 0.0 <= r < 360.0
    ensures x <= 0.0 ==> -360.0 < r <= 0.0
    ensures 0.0 <= x < 360.0 ==> r == x
    ensures -360.0 < x <= 0.0 ==> r == x
    ensures ((x - r) / 360.0).Floor as real == (x - r) / 360.0
  {
    x - 360.0 * Trunc(x / 360.0) as real
  }
}

=== FILE: refactor_scene.dfy ===
/**
 * The earlier version of the sketch (refactor/sketch.js): no rotation and no
 * automation; the three structures are built directly at their top-left
 * corners, only for the three drawable types, and the cell scale is a global
 * that only the per-frame `updateSliderValues` refreshes.
 */
module RefactorScene {
  import opened Wrappers
  import opened P5
  import opened Drawing
  import opened Structures
  import Scene

  /** The slider values this version reads: position, scale, line thickness and vertical offset. */
  datatype Inputs = Inputs(position: real, scale: real, lineThickness: real, yOffset: real)

  /** The sliders as `setup` creates them: position 0, scale 0.8, thickness 2, offset 0. */
  const InitialInputs: Inputs := Inputs(0.0, 0.8, 2.0, 0.0)

  /** The globals of the sketch: selected type, the slider-fed copies, and the structure list. */
  datatype Sketch = Sketch(
    structureType: string,
    positionOffset: real,
    cellScale: real,
    lineThickness: real,
    structures: seq<Structure>)

  /** The variant built for a type name: only the three the dropdown offers; any other name builds nothing. */
  function KindOf(typeName: string): (k: Option<Kind>)
    ensures k.Some? <==> typeName in ["line", "circle", "diagonal"]
    ensures k.Some? ==> k.value != SineWave && Scene.TypeName(k.value) == typeName
  {
    if typeName == "line" then Some(Line)
    else if typeName == "circle" then Some(Circle)
    else if typeName == "diagonal" then Some(Diagonal)
    else None
  }

  /** Top edge of structure `index`: vertically centred, the first moved up and the third down by height·yOffset. */
  function Top(index: nat, cellSize: real, height: real, yOffset: real): real {
    var y := height / 2.0 - (cellSize * Scene.CellCount as real) / 2.0;
    if index == 0 then y - height * yOffset
    else if index == 2 then y + height * yOffset
    else y
  }

  /** Left edge of structure `index`: its fraction of the width, minus half the grid. */
  function Left(index: nat, cellSize: real, width: real, position: real): real
    requires index < 3
  {
    width * Scene.Fractions(position)[index] - (cellSize * Scene.CellCount as real) / 2.0
  }

  /**
   * The structure list `updateStructure` builds: three structures, left to
   * right and coloured red, green, blue, for a known type; an empty list (no
   * error) for any other type.
   */
  function Build(typeName: string, cellScale: real, position: real, yOffset: real, width: real, height: real): (r: seq<Structure>)
    ensures |r| == (if typeName in ["line", "circle", "diagonal"] then 3 else 0)
    ensures forall i :: 0 <= i < |r| ==>
      && Scene.TypeName(r[i].kind) == typeName
      && r[i].color == Scene.Colors[i]
      && r[i].cellSize == Scene.BaseCellSize * cellScale
      && r[i].cellCount == Scene.CellCount
      && r[i].x + Extent(r[i].cellSize, r[i].cellCount) / 2.0 == width * Scene.Fractions(position)[i]
  {
    var cs := Scene.BaseCellSize * cellScale;
    match KindOf(typeName)
    case None => []
    case Some(k) =>
      seq(3, i requires 0 <= i < 3 =>
        Structure(k, Left(i, cs, width, position), Top(i, cs, height, yOffset), cs, Scene.CellCount, Scene.Colors[i]))
  }

  /** `updateStructure`: rebuilds the list from the current type, the stored cell scale and the live position and offset sliders. */
  function UpdateStructure(st: Sketch, inputs: Inputs, width: real, height: real): (r: Sketch)
    ensures r.structureType == st.structureType && r.cellScale == st.cellScale
    ensures r.positionOffset == st.positionOffset && r.lineThickness == st.lineThickness
    ensures r.structures == Build(st.structureType, st.cellScale, inputs.position, inputs.yOffset, width, height)
  {
    st.(structures := Build(st.structureType, st.cellScale, inputs.position, inputs.yOffset, width, height))
  }

  /** `updateSliderValues`: copies the sliders into the globals, then rebuilds the structures. */
  function UpdateSliderValues(st: Sketch, inputs: Inputs, width: real, height: real): (r: Sketch)
    ensures r.structureType == st.structureType
    ensures r.positionOffset == inputs.position && r.cellScale == inputs.scale && r.lineThickness == inputs.lineThickness
    ensures forall i :: 0 <= i < |r.structures| ==> r.structures[i].cellSize == Scene.BaseCellSize * inputs.scale
  {
    UpdateStructure(st.(positionOffset := inputs.position, cellScale := inputs.scale, lineThickness := inputs.lineThickness), inputs, width, height)
  }

  /** `setup`: type "line", position offset 0, cell scale 1, thickness 2, and a first build. */
  function Setup(inputs: Inputs, width: real, height: real): (r: Sketch)
    ensures r.structureType == "line" && r.cellScale == 1.0 && r.lineThickness == 2.0
    ensures |r.structures| == 3
  {
    UpdateStructure(Sketch("line", 0.0, 1.0, 2.0, []), inputs, width, height)
  }

  /** `onStructureChange`: stores the selected type and rebuilds. */
  function OnStructureChange(st: Sketch, typeName: string, inputs: Inputs, width: real, height: real): (r: Sketch)
    ensures r.structureType == typeName && r.cellScale == st.cellScale
    ensures |r.structures| == (if typeName in ["line", "circle", "diagonal"] then 3 else 0)
  {
    UpdateStructure(st.(structureType := typeName), inputs, width, height)
  }

  /**
   * `draw`: refreshes the slider copies and the list, then draws each
   * structure at its own corner. This version never builds a structure
   * without a draw routine, so a frame always draws, one routine per structure.
   */
  function Frame(st: Sketch, inputs: Inputs, width: real, height: real): (r: (Sketch, Option<seq<Command>>))
    ensures r.0.cellScale == inputs.scale && r.0.lineThickness == inputs.lineThickness && r.0.structureType == st.structureType
    ensures |r.0.structures| == (if st.structureType in ["line", "circle", "diagonal"] then 3 else 0)
    ensures r.1.Some? && Restores(r.1.value)
  {
    var next := UpdateSliderValues(st, inputs, width, height);
    DrawableOnly(next.structures, st.structureType);
    SequenceRestores(next.structures, next.lineThickness);
    (next, Sequence(next.structures, next.lineThickness))
  }

  /** Every structure's draw routine, in list order. */
  function Sequence(ss: seq<Structure>, lineThickness: real): (r: Option<seq<Command>>)
    ensures r.Some? <==> forall k :: 0 <= k < |ss| ==> ss[k].kind != SineWave
    decreases |ss|
  {
    if |ss| == 0 then Some([])
    else
      match DrawCommands(ss[0], lineThickness)
      case None => None
      case Some(first) =>
        match Sequence(ss[1..], lineThickness)
        case None => None
        case Some(rest) => Some(first + rest)
  }

  /**
   * Each routine pushes and pops around its own drawing, so the routines of a
   * whole list, run one after another, leave the canvas as they found it.
   */
  lemma {:induction false} SequenceRestores(ss: seq<Structure>, lineThickness: real)
    requires Sequence(ss, lineThickness).Some?
    ensures Restores(Sequence(ss, lineThickness).value)
    decreases |ss|
  {
    if |ss| == 0 {
      RestoresEmpty();
    } else {
      DrawRestores(ss[0], lineThickness);
      SequenceRestores(ss[1..], lineThickness);
      RestoresConcat(DrawCommands(ss[0], lineThickness).value, Sequence(ss[1..], lineThickness).value);
    }
  }

  /** A list built by this version holds no SineWave. */
  lemma DrawableOnly(ss: seq<Structure>, typeName: string)
    requires forall k :: 0 <= k < |ss| ==> Scene.TypeName(ss[k].kind) == typeName
    requires |ss| > 0 ==> typeName in ["line", "circle", "diagonal"]
    ensures forall k :: 0 <= k < |ss| ==> ss[k].kind != SineWave
  {
    forall k | 0 <= k < |ss|
      ensures ss[k].kind != SineWave
    {
      assert Scene.TypeName(ss[k].kind) in ["line", "circle", "diagonal"];
    }
  }

  /**
   * The horizontal layout: the left and right grids' centres add up to the
   * width, the middle grid is centred, and every grid is centred on its
   * fraction of the width.
   */
  lemma HorizontalLayout(typeName: string, cellScale: real, position: real, yOffset: real, width: real, height: real)
    requires typeName in ["line", "circle", "diagonal"]
    ensures var r := Build(typeName, cellScale, position, yOffset, width, height);
      var half := Extent(Scene.BaseCellSize * cellScale, Scene.CellCount) / 2.0;
      && (r[0].x + half) + (r[2].x + half) == width
      && r[1].x + half == width / 2.0
      && r[0].x + half == width * (0.25 + position / 200.0)
  {
    var fr := Scene.Fractions(position);
    Scene.FractionLaws(position);
    assert width * fr[0] + width * fr[2] == width * (fr[0] + fr[2]);
  }

  /**
   * The vertical layout: the middle grid is centred on height/2, the first
   * sits height·yOffset above it and the third the same distance below.
   */
  lemma VerticalLayout(typeName: string, cellScale: real, position: real, yOffset: real, width: real, height: real)
    requires typeName in ["line", "circle", "diagonal"]
    ensures var r := Build(typeName, cellScale, position, yOffset, width, height);
      var half := Extent(Scene.BaseCellSize * cellScale, Scene.CellCount) / 2.0;
      && r[1].y + half == height / 2.0
      && r[0].y == r[1].y - height * yOffset
      && r[2].y == r[1].y + height * yOffset
      && r[0].y + r[2].y == 2.0 * r[1].y
  {
  }

  /** Rebuilding with unchanged inputs changes nothing. */
  lemma UpdateIdempotent(st: Sketch, inputs: Inputs, width: real, height: real)
    ensures UpdateStructure(UpdateStructure(st, inputs, width, height), inputs, width, height) == UpdateStructure(st, inputs, width, height)
  {
  }

  /**
   * `setup` builds with scale 1 (cell size 40) whatever the scale slider
   * shows; the `updateSliderValues` that every `draw()` starts with brings the
   * cell size to 40 times the slider's value. The stale list exists only
   * between `setup` and the first drawn frame.
   */
  lemma ScaleAppliesOnlyAfterSliderUpdate(inputs: Inputs, width: real, height: real)
    ensures forall i :: 0 <= i < 3 ==> Setup(inputs, width, height).structures[i].cellSize == 40.0
    ensures var after := UpdateSliderValues(Setup(inputs, width, height), inputs, width, height);
      |after.structures| == 3
      && forall i :: 0 <= i < 3 ==> after.structures[i].cellSize == 40.0 * inputs.scale
  {
  }

  /**
   * `onStructureChange` rebuilds with the stored cell scale, the one the last
   * `updateSliderValues` copied; the `redraw()` it ends with runs `draw()`,
   * which refreshes the scale before anything is drawn (next lemma).
   */
  lemma TypeChangeUsesStoredScale(st: Sketch, typeName: string, inputs: Inputs, width: real, height: real)
    ensures forall i :: 0 <= i < |OnStructureChange(st, typeName, inputs, width, height).structures| ==>
      OnStructureChange(st, typeName, inputs, width, height).structures[i].cellSize == 40.0 * st.cellScale
  {
  }

  /**
   * Every drawn frame uses the slider's scale: after a type change, the frame
   * that follows has cell size 40 times the scale slider's value.
   */
  lemma TypeChangeThenFrame(st: Sketch, typeName: string, inputs: Inputs, width: real, height: real)
    ensures var next := Frame(OnStructureChange(st, typeName, inputs, width, height), inputs, width, height).0;
      && next.structureType == typeName
      && |next.structures| == (if typeName in ["line", "circle", "diagonal"] then 3 else 0)
      && forall i :: 0 <= i < |next.structures| ==> next.structures[i].cellSize == 40.0 * inputs.scale
  {
  }

  /**
   * With the sliders as `setup` creates them (scale 0.8), the structures are
   * first built with cell size 40, and the first frame draws them with cell
   * size 32.
   */
  lemma FirstFrameScale(width: real, height: real)
    ensures forall i :: 0 <= i < 3 ==> Setup(InitialInputs, width, height).structures[i].cellSize == 40.0
    ensures var first := Frame(Setup(InitialInputs, width, height), InitialInputs, width, height).0;
      |first.structures| == 3 && forall i :: 0 <= i < 3 ==> first.structures[i].cellSize == 32.0
  {
  }

  /**
   * The earlier version places every grid exactly where the main sketch does:
   * with the same slider values, each grid's top-left corner equals the main
   * sketch's centre point plus its centred origin, with the same variant,
   * colour and cells.
   */
  lemma AgreesWithMainSketch(typeName: string, inputs: Inputs, rotation: real, width: real, height: real, i: nat)
    requires typeName in ["line", "circle", "diagonal"] && i < 3
    ensures var r := Build(typeName, inputs.scale, inputs.position, inputs.yOffset, width, height)[i];
      var sl := Scene.Sliders(inputs.position, inputs.scale, inputs.yOffset, rotation);
      var p := Scene.UpdateStructure(sl, typeName, width, height).value[i];
      && r.kind == p.structure.kind && r.color == p.structure.color
      && r.cellSize == p.structure.cellSize && r.cellCount == p.structure.cellCount
      && r.x == p.centerX + p.structure.x
      && r.y == p.centerY + p.structure.y
  {
    var sl := Scene.Sliders(inputs.position, inputs.scale, inputs.yOffset, rotation);
    var r := Build(typeName, inputs.scale, inputs.position, inputs.yOffset, width, height)[i];
    var p := Scene.UpdateStructure(sl, typeName, width, height).value[i];
    assert Scene.TypeName(r.kind) == Scene.TypeName(p.structure.kind);
  }

  /** A name the main sketch accepts but this version does not: "sineWave" builds an empty list here. */
  lemma SineWaveBuildsNothing(cellScale: real, position: real, yOffset: real, width: real, height: real)
    ensures Build("sineWave", cellScale, position, yOffset, width, height) == []
    ensures "sineWave" in Scene.StructureTypes
  {
  }
}

=== FILE: scene.dfy ===
/**
 * Scene placement of the main sketch: from the slider values and the canvas
 * size, three structures (left, centre, right) with their grid, colour and
 * placement (centre point and rotation angle); the factory that turns a type
 * name into a structure variant; and the commands one frame draws.
 */
module Scene {
  import opened Wrappers
  import opened P5
  import opened Drawing
  import opened Structures

  /** `config.baseCellSize`: cell size at scale 1. */
  const BaseCellSize: real := 40.0

  /** `config.cellCount`: cells per grid side. */
  const CellCount: nat := 10

  /** `config.structureTypes`: the names the factory accepts, in dropdown order. */
  const StructureTypes: seq<string> := ["line", "circle", "diagonal", "sineWave"]

  const Red: Color := Rgba(255, 0, 0, 100)
  const Green: Color := Rgba(0, 255, 0, 100)
  const Blue: Color := Rgba(0, 0, 255, 100)

  /** The colours of the left, centre and right structure. */
  const Colors: seq<Color> := [Red, Green, Blue]

  /** The four slider values `updateStructure` reads, already parsed to numbers. */
  datatype Sliders = Sliders(position: real, scale: real, yOffset: real, rotation: real)

  /** A structure together with where it is drawn: its centre point and rotation angle (radians). */
  datatype Placement = Placement(structure: Structure, centerX: real, centerY: real, rotationAngle: real)

  /** The name under which the factory builds each variant. */
  function TypeName(k: Kind): string {
    match k
    case Line => "line"
    case Circle => "circle"
    case Diagonal => "diagonal"
    case SineWave => "sineWave"
  }

  /** The factory's error message for an unrecognised name. */
  function UnknownType(typeName: string): string {
    "Unknown structure type: " + typeName
  }

  /**
   * `structureFactory`: builds the variant named `typeName`, storing the
   * geometry and colour unchanged, or throws for any other name.
   */
  function Factory(typeName: string, x: real, y: real, cellSize: real, cellCount: nat, color: Color): (r: Result<Structure, string>)
    ensures r.Success? <==> typeName in StructureTypes
    ensures r.Success? ==> TypeName(r.value.kind) == typeName
    ensures r.Success? ==> r.value.x == x && r.value.y == y && r.value.cellSize == cellSize
                           && r.value.cellCount == cellCount && r.value.color == color
    ensures r.Failure? ==> r.error == UnknownType(typeName)
  {
    if typeName == "line" then Success(Structure(Line, x, y, cellSize, cellCount, color))
    else if typeName == "circle" then Success(Structure(Circle, x, y, cellSize, cellCount, color))
    else if typeName == "diagonal" then Success(Structure(Diagonal, x, y, cellSize, cellCount, color))
    else if typeName == "sineWave" then Success(Structure(SineWave, x, y, cellSize, cellCount, color))
    else Failure(UnknownType(typeName))
  }

  /** Every variant is built back from its own name: the factory inverts TypeName. */
  lemma FactoryRoundTrip(k: Kind, x: real, y: real, cellSize: real, cellCount: nat, color: Color)
    ensures Factory(TypeName(k), x, y, cellSize, cellCount, color) == Success(Structure(k, x, y, cellSize, cellCount, color))
  {
  }

  /** Horizontal positions as fractions of the canvas width: left, centre, right. */
  function Fractions(position: real): seq<real> {
    [Remap(position, 0.0, 100.0, 0.25, 0.75), 0.5, Remap(position, 0.0, 100.0, 0.75, 0.25)]
  }

  /** Vertical centre of structure `index`: the left one shifted up and the right one down by height·yOffset. */
  function CenterY(index: nat, height: real, yOffset: real): real {
    height / 2.0 + (if index == 0 then -height * yOffset else if index == 2 then height * yOffset else 0.0)
  }

  /** Rotation of structure `index`: the slider angle for the left one, its opposite for the right, none for the centre. */
  function Angle(index: nat, rotation: real): real {
    if index == 0 then Radians(rotation) else if index == 2 then -Radians(rotation) else 0.0
  }

  /** The grid origin that puts a grid of the given cell size centred on its placement point. */
  function Origin(cellSize: real): real {
    -(cellSize * CellCount as real) / 2.0
  }

  function Slot(index: nat, s: Structure, sl: Sliders, width: real, height: real): Placement
    requires index < 3
  {
    Placement(s, width * Fractions(sl.position)[index], CenterY(index, height, sl.yOffset), Angle(index, sl.rotation))
  }

  /**
   * `updateStructure`: the three placed structures, left to right, each built
   * by the factory from the selected type; an unknown type throws.
   */
  function UpdateStructure(sl: Sliders, typeName: string, width: real, height: real): (r: Result<seq<Placement>, string>)
    ensures r.Success? <==> typeName in StructureTypes
    ensures r.Failure? ==> r.error == UnknownType(typeName)
    ensures r.Success? ==> |r.value| == 3
    ensures r.Success? ==> forall i :: 0 <= i < 3 ==>
      && r.value[i].structure.color == Colors[i]
      && TypeName(r.value[i].structure.kind) == typeName
      && r.value[i].structure.cellSize == BaseCellSize * sl.scale
      && r.value[i].structure.cellCount == CellCount
      && r.value[i].structure.x == Origin(BaseCellSize * sl.scale)
      && r.value[i].structure.y == Origin(BaseCellSize * sl.scale)
  {
    var cs := BaseCellSize * sl.scale;
    var o := -(cs * CellCount as real) / 2.0;
    var f0 := Factory(typeName, o, o, cs, CellCount, Colors[0]);
    var f1 := Factory(typeName, o, o, cs, CellCount, Colors[1]);
    var f2 := Factory(typeName, o, o, cs, CellCount, Colors[2]);
    // All three calls get the same name, so the first one decides whether the loop throws.
    if f0.Failure? then Failure(f0.error)
    else Success([Slot(0, f0.value, sl, width, height), Slot(1, f1.value, sl, width, height), Slot(2, f2.value, sl, width, height)])
  }

  /** The structure list the sketch holds afterwards: it is cleared before the factory can throw. */
  function StructuresAfter(r: Result<seq<Placement>, string>): seq<Placement> {
    match r
    case Success(ps) => ps
    case Failure(_) => []
  }

  /** An unknown type leaves the sketch with no structures at all. */
  lemma UnknownTypeLeavesNothing(sl: Sliders, typeName: string, width: real, height: real)
    requires typeName !in StructureTypes
    ensures StructuresAfter(UpdateStructure(sl, typeName, width, height)) == []
  {
  }

  /**
   * The left and right fractions are 0.25 + v/200 and 0.75 − v/200, so they
   * always sum to 1; the centre one is 0.5; for positions in [0, 100] they
   * stay within [0.25, 0.75].
   */
  lemma FractionLaws(v: real)
    ensures Fractions(v)[0] == 0.25 + v / 200.0
    ensures Fractions(v)[2] == 0.75 - v / 200.0
    ensures Fractions(v)[0] + Fractions(v)[2] == 1.0
    ensures Fractions(v)[1] == 0.5
    ensures 0.0 <= v <= 100.0 ==> 0.25 <= Fractions(v)[0] <= 0.75 && 0.25 <= Fractions(v)[2] <= 0.75
  {
  }

  /**
   * Left and right mirror each other about the centre structure: their centres
   * are symmetric about (width/2, height/2) and their angles opposite; the
   * centre structure sits at (width/2, height/2) unrotated.
   */
  lemma MirrorSymmetry(sl: Sliders, typeName: string, width: real, height: real)
    requires typeName in StructureTypes
    ensures var ps := UpdateStructure(sl, typeName, width, height).value;
      && ps[0].centerX + ps[2].centerX == width
      && ps[1].centerX == width / 2.0
      && ps[0].centerY + ps[2].centerY == height
      && ps[0].centerY == height / 2.0 - height * sl.yOffset
      && ps[2].centerY == height / 2.0 + height * sl.yOffset
      && ps[1].centerY == height / 2.0
      && ps[0].rotationAngle == Radians(sl.rotation)
      && ps[0].rotationAngle + ps[2].rotationAngle == 0.0
      && ps[1].rotationAngle == 0.0
  {
    var fr := Fractions(sl.position);
    FractionLaws(sl.position);
    assert width * fr[0] + width * fr[2] == width * (fr[0] + fr[2]);
  }

  /**
   * At position 0 the side structures sit at 25% and 75% of the width, at 100
   * they have swapped, and at 50 all three overlap at the centre.
   */
  lemma PositionEndpoints(sl: Sliders, typeName: string, width: real, height: real)
    requires typeName in StructureTypes
    ensures var ps := UpdateStructure(sl, typeName, width, height).value;
      && (sl.position == 0.0 ==> ps[0].centerX == width * 0.25 && ps[2].centerX == width * 0.75)
      && (sl.position == 100.0 ==> ps[0].centerX == width * 0.75 && ps[2].centerX == width * 0.25)
      && (sl.position == 50.0 ==> ps[0].centerX == ps[1].centerX == ps[2].centerX == width / 2.0)
  {
    Centers(sl, typeName, width, height);
    FractionLaws(sl.position);
  }

  /** The centre points are the width times the fractions. */
  lemma Centers(sl: Sliders, typeName: string, width: real, height: real)
    requires typeName in StructureTypes
    ensures var ps := UpdateStructure(sl, typeName, width, height).value;
      var fr := Fractions(sl.position);
      && ps[0].centerX == width * fr[0] && ps[1].centerX == width * fr[1] && ps[2].centerX == width * fr[2]
  {
  }

  /** For positions in 0..100 the side structures stay within the middle half of the width. */
  lemma SidesStayInside(sl: Sliders, typeName: string, width: real, height: real)
    requires typeName in StructureTypes && width >= 0.0 && 0.0 <= sl.position <= 100.0
    ensures var ps := UpdateStructure(sl, typeName, width, height).value;
      && width * 0.25 <= ps[0].centerX <= width * 0.75
      && width * 0.25 <= ps[2].centerX <= width * 0.75
      && ps[1].centerX == width / 2.0
  {
    Centers(sl, typeName, width, height);
    FractionLaws(sl.position);
    var fr := Fractions(sl.position);
    ScaleWithin(width, fr[0]);
    ScaleWithin(width, fr[2]);
  }

  lemma ScaleWithin(width: real, f: real)
    requires width >= 0.0 && 0.25 <= f <= 0.75
    ensures width * 0.25 <= width * f <= width * 0.75
  {
  }

  /** The outer placement transform and the structure's own transforms, as applied in one frame. */
  function PlacementTransform(p: Placement): seq<Elem> {
    [Translate(p.centerX, p.centerY), Rotate(p.rotationAngle)] + Centering(p.structure)
  }

  /**
   * Each grid is centred on its placement point: the origin is minus half the
   * grid extent, so the structure's own transforms reduce to a translation by
   * that origin, and for the unrotated centre structure the whole grid square
   * runs from (cx − half, cy − half) to (cx + half, cy + half).
   */
  lemma GridCentred(sl: Sliders, typeName: string, width: real, height: real, i: nat)
    requires typeName in StructureTypes && i < 3
    ensures var p := UpdateStructure(sl, typeName, width, height).value[i];
      var half := Extent(p.structure.cellSize, p.structure.cellCount) / 2.0;
      && p.structure.x == -half && p.structure.y == -half
      && NetTranslation(Centering(p.structure)) == Some(Point(-half, -half))
      && (i == 1 ==> NetTranslation(PlacementTransform(p)) == Some(Point(p.centerX - half, p.centerY - half)))
  {
    var p := UpdateStructure(sl, typeName, width, height).value[i];
    CenteringIsTranslation(p.structure);
    if i == 1 {
      var outer := [Translate(p.centerX, p.centerY), Rotate(p.rotationAngle)];
      assert outer[1..][1..] == [];
      assert NetTranslation(outer[1..]) == Some(Point(0.0, 0.0));
      assert NetTranslation(outer) == Some(Point(p.centerX, p.centerY));
      NetTranslationAppend(outer, Centering(p.structure));
    }
  }

  /** One placed structure in `draw()`: push, translate to its centre, rotate, the structure's own routine, pop. */
  function PlacedCommands(p: Placement, lineThickness: real): (r: Option<seq<Command>>)
    ensures r.Some? <==> p.structure.kind != SineWave
  {
    match DrawCommands(p.structure, lineThickness)
    case None => None
    case Some(inner) => Some([Push, Apply(Translate(p.centerX, p.centerY)), Apply(Rotate(p.rotationAngle))] + inner + [Pop])
  }

  /** The commands of one frame: every placed structure in order; None when one of them is a SineWave. */
  function FrameCommands(ps: seq<Placement>, lineThickness: real): (r: Option<seq<Command>>)
    ensures r.Some? <==> forall k :: 0 <= k < |ps| ==> ps[k].structure.kind != SineWave
    decreases |ps|
  {
    if |ps| == 0 then Some([])
    else
      match PlacedCommands(ps[0], lineThickness)
      case None => None
      case Some(first) =>
        match FrameCommands(ps[1..], lineThickness)
        case None => None
        case Some(rest) => Some(first + rest)
  }

  /** A whole frame leaves the canvas's transform, style and saved stack as it found them. */
  lemma {:induction false} FrameRestores(ps: seq<Placement>, lineThickness: real)
    requires FrameCommands(ps, lineThickness).Some?
    ensures Restores(FrameCommands(ps, lineThickness).value)
    decreases |ps|
  {
    if |ps| == 0 {
      RestoresEmpty();
    } else {
      var p := ps[0];
      var inner := DrawCommands(p.structure, lineThickness).value;
      DrawRestores(p.structure, lineThickness);
      var pre := [Apply(Translate(p.centerX, p.centerY)), Apply(Rotate(p.rotationAngle))];
      Bracketed(pre, inner, []);
      assert [Push] + pre + inner + [] + [Pop] == PlacedCommands(p, lineThickness).value;
      FrameRestores(ps[1..], lineThickness);
      RestoresConcat(PlacedCommands(p, lineThickness).value, FrameCommands(ps[1..], lineThickness).value);
    }
  }
}

=== FILE: structures.dfy ===
/**
 * The structure classes: a base record holding a grid origin, cell size, cell
 * count and colour, and one draw routine per variant. Each routine is a
 * deterministic loop over the `cellCount x cellCount` grid; here it is a
 * function returning the primitives the loop emits, in loop order, wrapped in
 * the push / transform / style / pop commands around them.
 */
module Structures {
  import opened Wrappers
  import opened Drawing

  /** The variants a structure can be. SineWave's drawing code is not part of this model. */
  datatype Kind = Line | Circle | Diagonal | SineWave

  /** What the constructor stores: grid origin (x, y), cell size, cell count and colour, plus the variant. */
  datatype Structure = Structure(kind: Kind, x: real, y: real, cellSize: real, cellCount: nat, color: Color)

  /** Side length of the whole grid, `cellSize * cellCount`. */
  function Extent(cs: real, n: nat): real {
    cs * n as real
  }

  /** The coordinate `i * cellSize` of grid line `i`. */
  function Coord(i: int, cs: real): real {
    i as real * cs
  }

  // ---------------------------------------------------------------------------
  // Line lattice

  /** Reference form of lattice line `i`: vertical at x = i·cs, or horizontal at y = i·cs, spanning the grid. */
  function LatticeLine(i: nat, horizontal: bool, cs: real, n: nat): Shape {
    if horizontal then Segment(Point(0.0, Coord(i, cs)), Point(Extent(cs, n), Coord(i, cs)))
    else Segment(Point(Coord(i, cs), 0.0), Point(Coord(i, cs), Extent(cs, n)))
  }

  /**
   * The iterations `i .. cellCount` of LineStructure's loop: each draws the
   * vertical line through x = i·cs, then the horizontal line through y = i·cs.
   */
  function LatticeFrom(i: nat, cs: real, n: nat): (r: seq<Shape>)
    requires i <= n + 1
    ensures |r| == 2 * (n + 1 - i)
    decreases n + 1 - i
  {
    if i == n + 1 then []
    else
      var x := Coord(i, cs);
      var y := Coord(i, cs);
      var e := Extent(cs, n);
      [Segment(Point(x, 0.0), Point(x, e)), Segment(Point(0.0, y), Point(e, y))] + LatticeFrom(i + 1, cs, n)
  }

  /** Iteration j of the loop emits, at positions 2(j - i) and 2(j - i) + 1, the vertical and then the horizontal line j. */
  lemma {:induction false} LatticeFromAt(i: nat, cs: real, n: nat, j: nat)
    requires i <= j <= n
    ensures LatticeFrom(i, cs, n)[2 * (j - i)] == LatticeLine(j, false, cs, n)
    ensures LatticeFrom(i, cs, n)[2 * (j - i) + 1] == LatticeLine(j, true, cs, n)
    decreases j - i
  {
    if i < j {
      LatticeFromAt(i + 1, cs, n, j);
      assert 2 * (j - i) == 2 + 2 * (j - (i + 1));
    }
  }

  /** The segments LineStructure draws, in its local frame. */
  function LineShapes(cs: real, n: nat): seq<Shape> {
    LatticeFrom(0, cs, n)
  }

  // ---------------------------------------------------------------------------
  // Per-cell grids (circles and diagonals)

  /** What one cell of a per-cell grid holds: a circle or a diagonal hatch. */
  datatype CellMark = Dot | Hatch

  /** The body of the nested loops for cell (i, j). */
  function CellShape(m: CellMark, i: nat, j: nat, cs: real): Shape {
    var x := i as real * cs;
    var y := j as real * cs;
    match m
    case Dot => Ellipse(Point(x + cs / 2.0, y + cs / 2.0), cs * 0.8)
    case Hatch => Segment(Point(x, y), Point(x + cs, y + cs))
  }

  /** The inner loop `for (j ...; j < cellCount; j++)` of column i, from j on. */
  function CellRun(m: CellMark, i: nat, j: nat, cs: real, n: nat): (r: seq<Shape>)
    requires j <= n
    ensures |r| == n - j
    ensures forall k :: 0 <= k < |r| ==> r[k] == CellShape(m, i, j + k, cs)
    decreases n - j
  {
    if j == n then [] else [CellShape(m, i, j, cs)] + CellRun(m, i, j + 1, cs, n)
  }

  /** The outer loop `for (i ...; i < cellCount; i++)`, from i on. */
  function CellRows(m: CellMark, i: nat, cs: real, n: nat): (r: seq<Shape>)
    requires i <= n
    ensures |r| == (n - i) * n
    decreases n - i
  {
    if i == n then []
    else
      assert (n - i) * n == n + (n - (i + 1)) * n;
      CellRun(m, i, 0, cs, n) + CellRows(m, i + 1, cs, n)
  }

  /** Position of cell (a, b) in loop order: row-major in the outer index. */
  function Index(n: nat, a: nat, b: nat): nat {
    a * n + b
  }

  /** The loops emit cell (i + a, b) at position a·n + b. */
  lemma {:induction false} CellRowsAt(m: CellMark, i: nat, cs: real, n: nat, a: nat, b: nat)
    requires i <= n && a < n - i && b < n
    ensures Index(n, a, b) < |CellRows(m, i, cs, n)|
    ensures CellRows(m, i, cs, n)[Index(n, a, b)] == CellShape(m, i + a, b, cs)
    decreases a
  {
    var first := CellRun(m, i, 0, cs, n);
    if a > 0 {
      CellRowsAt(m, i + 1, cs, n, a - 1, b);
      assert Index(n, a, b) == n + Index(n, a - 1, b);
    }
  }

  /** The ellipses CircleStructure draws, in its local frame. */
  function CircleShapes(cs: real, n: nat): seq<Shape> {
    CellRows(Dot, 0, cs, n)
  }

  /** The segments DiagonalLineStructure draws, in its local frame. */
  function DiagonalShapes(cs: real, n: nat): seq<Shape> {
    CellRows(Hatch, 0, cs, n)
  }

  // ---------------------------------------------------------------------------
  // Bounds

  predicate InSquare(p: Point, lo: real, hi: real) {
    lo <= p.x <= hi && lo <= p.y <= hi
  }

  /** A segment with both ends in the square, or an ellipse whose bounding box is in it. */
  predicate ShapeWithin(s: Shape, lo: real, hi: real) {
    match s
    case Segment(a, b) => InSquare(a, lo, hi) && InSquare(b, lo, hi)
    case Ellipse(c, d) =>
      lo <= c.x - d / 2.0 && c.x + d / 2.0 <= hi && lo <= c.y - d / 2.0 && c.y + d / 2.0 <= hi
  }

  /** An ellipse lies strictly inside cell (i, j): its bounding box does not touch the cell's border. */
  predicate StrictlyInCell(s: Shape, i: nat, j: nat, cs: real) {
    s.Ellipse?
    && Coord(i, cs) < s.center.x - s.diameter / 2.0 && s.center.x + s.diameter / 2.0 < Coord(i + 1, cs)
    && Coord(j, cs) < s.center.y - s.diameter / 2.0 && s.center.y + s.diameter / 2.0 < Coord(j + 1, cs)
  }

  lemma CoordMono(i: nat, j: nat, cs: real)
    requires i <= j && 0.0 <= cs
    ensures 0.0 <= Coord(i, cs) <= Coord(j, cs)
  {
    assert Coord(j, cs) - Coord(i, cs) == (j - i) as real * cs;
  }

  lemma CoordNext(i: nat, cs: real)
    ensures Coord(i + 1, cs) == Coord(i, cs) + cs
  {
  }

  // ---------------------------------------------------------------------------
  // Draw routines as command lists

  /** The transforms every draw routine applies: to the grid centre, rotate by the (always zero) angle, back by half the extent. */
  function Centering(s: Structure): seq<Elem> {
    var half := Extent(s.cellSize, s.cellCount) / 2.0;
    [Translate(s.x + half, s.y + half), Rotate(0.0), Translate(-half, -half)]
  }

  function Applies(t: seq<Elem>): (r: seq<Command>)
    ensures |r| == |t| && Unscoped(r)
    ensures forall k :: 0 <= k < |r| ==> r[k] == Apply(t[k])
  {
    seq(|t|, k requires 0 <= k < |t| => Apply(t[k]))
  }

  /** The primitives a structure's draw routine emits in its local frame; None for SineWave, whose code is not modelled. */
  function Shapes(s: Structure): Option<seq<Shape>> {
    match s.kind
    case Line => Some(LineShapes(s.cellSize, s.cellCount))
    case Circle => Some(CircleShapes(s.cellSize, s.cellCount))
    case Diagonal => Some(DiagonalShapes(s.cellSize, s.cellCount))
    case SineWave => None
  }

  /** The style each routine sets: stroke colour and the global line thickness, or fill colour and no stroke. */
  function Styling(s: Structure, lineThickness: real): seq<Command> {
    match s.kind
    case Circle => [SetFill(Paint(s.color)), SetStroke(NoPaint)]
    case _ => [SetStroke(Paint(s.color)), SetWeight(lineThickness)]
  }

  /** The style a routine's primitives are drawn in, starting from style `st`. */
  function StyleAfter(s: Structure, lineThickness: real, st: Style): Style {
    match s.kind
    case Circle => st.(fill := Paint(s.color), stroke := NoPaint)
    case _ => st.(stroke := Paint(s.color), weight := lineThickness)
  }

  /**
   * `draw()` of the structure's class: push, transform, style, the loop's
   * primitives, pop. `lineThickness` is the global the stroke weight is read from.
   */
  function DrawCommands(s: Structure, lineThickness: real): (r: Option<seq<Command>>)
    ensures r.None? <==> s.kind == SineWave
  {
    match Shapes(s)
    case None => None
    case Some(shapes) =>
      Some([Push] + Applies(Centering(s)) + Styling(s, lineThickness) + Draws(shapes) + [Pop])
  }

  /** The lattice `drawGrid()` emits from iteration i on, at absolute coordinates. */
  function GridFrom(i: nat, s: Structure): (r: seq<Shape>)
    requires i <= s.cellCount + 1
    ensures |r| == 2 * (s.cellCount + 1 - i)
    decreases s.cellCount + 1 - i
  {
    if i == s.cellCount + 1 then []
    else
      var x := s.x + i as real * s.cellSize;
      var y := s.y + i as real * s.cellSize;
      var e := s.cellSize * s.cellCount as real;
      [Segment(Point(x, s.y), Point(x, s.y + e)), Segment(Point(s.x, y), Point(s.x + e, y))]
        + GridFrom(i + 1, s)
  }

  /** `drawGrid()`: push, black stroke, the lattice at the structure's absolute origin, pop. */
  function GridCommands(s: Structure): seq<Command> {
    [Push, SetStroke(Paint(Black))] + Draws(GridFrom(0, s)) + [Pop]
  }

  // ---------------------------------------------------------------------------
  // Properties

  /**
   * LineStructure draws 2·(n+1) segments: at position 2i the vertical line at
   * x = i·cs and at 2i+1 the horizontal line at y = i·cs, each spanning the
   * full extent cs·n; with a non-negative cell size every endpoint lies in
   * the square [0, cs·n]².
   */
  lemma LineLattice(cs: real, n: nat)
    ensures |LineShapes(cs, n)| == 2 * (n + 1)
    ensures forall i :: 0 <= i <= n ==>
      LineShapes(cs, n)[2 * i] == Segment(Point(Coord(i, cs), 0.0), Point(Coord(i, cs), Extent(cs, n)))
      && LineShapes(cs, n)[2 * i + 1] == Segment(Point(0.0, Coord(i, cs)), Point(Extent(cs, n), Coord(i, cs)))
    ensures 0.0 <= cs ==> forall k :: 0 <= k < |LineShapes(cs, n)| ==> ShapeWithin(LineShapes(cs, n)[k], 0.0, Extent(cs, n))
  {
    var r := LineShapes(cs, n);
    forall i | 0 <= i <= n
      ensures r[2 * i] == LatticeLine(i, false, cs, n) && r[2 * i + 1] == LatticeLine(i, true, cs, n)
    {
      LatticeFromAt(0, cs, n, i);
    }
    if 0.0 <= cs {
      forall k | 0 <= k < |r|
        ensures ShapeWithin(r[k], 0.0, Extent(cs, n))
      {
        var i := k / 2;
        LatticeFromAt(0, cs, n, i);
        CoordMono(i, n, cs);
        assert k == 2 * i || k == 2 * i + 1;
      }
    }
  }

  /**
   * CircleStructure draws n² ellipses: cell (i, j) at position i·n + j holds
   * the circle of diameter 0.8·cs centred at ((i + ½)·cs, (j + ½)·cs), which
   * lies strictly inside the cell when cs > 0.
   */
  lemma CircleGrid(cs: real, n: nat, i: nat, j: nat)
    requires i < n && j < n
    ensures |CircleShapes(cs, n)| == n * n
    ensures Index(n, i, j) < n * n
    ensures CircleShapes(cs, n)[Index(n, i, j)]
         == Ellipse(Point((i as real + 0.5) * cs, (j as real + 0.5) * cs), 0.8 * cs)
    ensures 0.0 < cs ==> StrictlyInCell(CircleShapes(cs, n)[Index(n, i, j)], i, j, cs)
  {
    IndexBound(n, i, j);
    CellRowsAt(Dot, 0, cs, n, i, j);
    DotShape(i, j, cs);
  }

  /** Positions of the cells of an n x n grid stay below n². */
  lemma IndexBound(n: nat, i: nat, j: nat)
    requires i < n && j < n
    ensures Index(n, i, j) < n * n
  {
    assert Index(n, i, j) < (i + 1) * n;
    assert n * n - (i + 1) * n == (n - (i + 1)) * n;
  }

  /** The circle of cell (i, j): centred in the cell, diameter 0.8·cs, clear of the cell's border when cs > 0. */
  lemma DotShape(i: nat, j: nat, cs: real)
    ensures CellShape(Dot, i, j, cs) == Ellipse(Point((i as real + 0.5) * cs, (j as real + 0.5) * cs), 0.8 * cs)
    ensures 0.0 < cs ==> StrictlyInCell(CellShape(Dot, i, j, cs), i, j, cs)
  {
    CoordNext(i, cs);
    CoordNext(j, cs);
    assert i as real * cs + cs / 2.0 == (i as real + 0.5) * cs;
    assert j as real * cs + cs / 2.0 == (j as real + 0.5) * cs;
  }

  /** The diagonal of cell (i, j): from its top-left to its bottom-right corner. */
  lemma HatchShape(i: nat, j: nat, cs: real)
    ensures CellShape(Hatch, i, j, cs) == Segment(Point(Coord(i, cs), Coord(j, cs)), Point(Coord(i + 1, cs), Coord(j + 1, cs)))
  {
    CoordNext(i, cs);
    CoordNext(j, cs);
  }

  /** The cell (i, j) of an n x n grid, and so its circle or diagonal, lies within the grid square [0, cs·n]². */
  lemma CellWithin(m: CellMark, cs: real, n: nat, i: nat, j: nat)
    requires i < n && j < n && 0.0 <= cs
    ensures ShapeWithin(CellShape(m, i, j, cs), 0.0, Extent(cs, n))
  {
    CoordMono(i + 1, n, cs);
    CoordMono(j + 1, n, cs);
    CoordNext(i, cs);
    CoordNext(j, cs);
    var xi, yj, e := Coord(i, cs), Coord(j, cs), Extent(cs, n);
    assert 0.0 <= xi && xi + cs <= e && 0.0 <= yj && yj + cs <= e;
    assert CellShape(m, i, j, cs) == match m
      case Dot => Ellipse(Point(xi + cs / 2.0, yj + cs / 2.0), cs * 0.8)
      case Hatch => Segment(Point(xi, yj), Point(xi + cs, yj + cs));
  }

  lemma CircleCellWithin(cs: real, n: nat, i: nat, j: nat)
    requires i < n && j < n && 0.0 <= cs
    ensures Index(n, i, j) < |CircleShapes(cs, n)|
    ensures ShapeWithin(CircleShapes(cs, n)[Index(n, i, j)], 0.0, Extent(cs, n))
  {
    CellRowsAt(Dot, 0, cs, n, i, j);
    CellWithin(Dot, cs, n, i, j);
  }

  /** Every circle lies within the grid square [0, cs·n]². */
  lemma CirclesWithin(cs: real, n: nat)
    requires 0.0 <= cs
    ensures forall i, j :: 0 <= i < n && 0 <= j < n ==>
      Index(n, i, j) < |CircleShapes(cs, n)| && ShapeWithin(CircleShapes(cs, n)[Index(n, i, j)], 0.0, Extent(cs, n))
  {
    forall i, j | 0 <= i < n && 0 <= j < n
      ensures Index(n, i, j) < |CircleShapes(cs, n)| && ShapeWithin(CircleShapes(cs, n)[Index(n, i, j)], 0.0, Extent(cs, n))
    {
      CircleCellWithin(cs, n, i, j);
    }
  }

  /**
   * DiagonalLineStructure draws n² segments, one per cell: cell (i, j) at
   * position i·n + j is the diagonal from (i·cs, j·cs) to ((i+1)·cs, (j+1)·cs),
   * inside the grid square when cs >= 0.
   */
  lemma DiagonalGrid(cs: real, n: nat, i: nat, j: nat)
    requires i < n && j < n
    ensures |DiagonalShapes(cs, n)| == n * n
    ensures Index(n, i, j) < n * n
    ensures DiagonalShapes(cs, n)[Index(n, i, j)]
         == Segment(Point(Coord(i, cs), Coord(j, cs)), Point(Coord(i + 1, cs), Coord(j + 1, cs)))
    ensures 0.0 <= cs ==> ShapeWithin(DiagonalShapes(cs, n)[Index(n, i, j)], 0.0, Extent(cs, n))
  {
    IndexBound(n, i, j);
    CellRowsAt(Hatch, 0, cs, n, i, j);
    HatchShape(i, j, cs);
    if 0.0 <= cs {
      CellWithin(Hatch, cs, n, i, j);
    }
  }

  /** The three transforms of a draw routine compose to the pure translation by the structure's origin (x, y). */
  lemma CenteringIsTranslation(s: Structure)
    ensures NetTranslation(Centering(s)) == Some(Point(s.x, s.y))
  {
    var t := Centering(s);
    var half := Extent(s.cellSize, s.cellCount) / 2.0;
    assert t[2..] == [Translate(-half, -half)];
    assert t[2..][1..] == [];
    assert NetTranslation(t[2..][1..]) == Some(Point(0.0, 0.0));
    assert NetTranslation(t[2..]) == Some(Point(-half, -half));
    assert t[1..] == [Rotate(0.0)] + t[2..];
    assert t[1..][1..] == t[2..];
    assert NetTranslation(t[1..]) == Some(Point(-half, -half));
  }

  /** `drawGrid()` emits LineStructure's lattice moved to the absolute origin (x, y). */
  lemma {:induction false} GridIsMovedLattice(i: nat, s: Structure)
    requires i <= s.cellCount + 1
    ensures GridFrom(i, s) == MoveAll(LatticeFrom(i, s.cellSize, s.cellCount), Point(s.x, s.y))
    decreases s.cellCount + 1 - i
  {
    if i <= s.cellCount {
      GridIsMovedLattice(i + 1, s);
      var l := LatticeFrom(i, s.cellSize, s.cellCount);
      var g := GridFrom(i, s);
      var m := MoveAll(l, Point(s.x, s.y));
      assert g[2..] == m[2..];
      assert g[0] == m[0] && g[1] == m[1];
      assert g == g[..2] + g[2..] && m == m[..2] + m[2..];
    }
  }

  /** Applying transform steps appends them to the current transform and emits nothing. */
  lemma {:induction false} RunApplies(c: Canvas, t: seq<Elem>)
    ensures Run(c, Applies(t)).canvas == c.(current := c.current.(transform := c.current.transform + t))
    ensures Run(c, Applies(t)).marks == []
    decreases |t|
  {
    if |t| == 0 {
      assert c.current.transform + t == c.current.transform;
    } else {
      assert Applies(t)[1..] == Applies(t[1..]);
      var c1 := Step(c, Apply(t[0])).canvas;
      RunApplies(c1, t[1..]);
      assert c1.current.transform + t[1..] == c.current.transform + t;
    }
  }

  /** The style commands of a routine set exactly the style StyleAfter describes and emit nothing. */
  lemma RunStyling(c: Canvas, s: Structure, lineThickness: real)
    ensures Run(c, Styling(s, lineThickness)).canvas == c.(current := c.current.(style := StyleAfter(s, lineThickness, c.current.style)))
    ensures Run(c, Styling(s, lineThickness)).marks == []
  {
    var cmds := Styling(s, lineThickness);
    var c1 := Step(c, cmds[0]).canvas;
    assert cmds[1..][1..] == [];
    assert Run(c1, cmds[1..]) == Outcome(Step(c1, cmds[1]).canvas, []);
  }

  /**
   * A draw routine is bracketed by push/pop: running it from any canvas
   * leaves the transform, the style and the saved stack as they were.
   */
  lemma DrawRestores(s: Structure, lineThickness: real)
    requires s.kind != SineWave
    ensures Restores(DrawCommands(s, lineThickness).value)
  {
    var body := Applies(Centering(s)) + Styling(s, lineThickness) + Draws(Shapes(s).value);
    assert Unscoped(body);
    RestoresEmpty();
    Bracketed(body, [], []);
    assert [Push] + body + [] + [] + [Pop] == DrawCommands(s, lineThickness).value;
  }

  /** `drawGrid()` is bracketed by push/pop too. */
  lemma GridRestores(s: Structure)
    ensures Restores(GridCommands(s))
  {
    var body := [SetStroke(Paint(Black))] + Draws(GridFrom(0, s));
    assert Unscoped(body);
    RestoresEmpty();
    Bracketed(body, [], []);
    assert [Push] + body + [] + [] + [Pop] == GridCommands(s);
  }

  /**
   * Running a draw routine emits exactly the loop's primitives, in order, each
   * drawn under the canvas's transform followed by the routine's own
   * transforms, in the colour and weight (or fill) the routine sets.
   */
  lemma DrawMarks(c: Canvas, s: Structure, lineThickness: real)
    requires s.kind != SineWave
    ensures var marks := Run(c, DrawCommands(s, lineThickness).value).marks;
      && |marks| == |Shapes(s).value|
      && forall k :: 0 <= k < |marks| ==>
           marks[k] == Mark(Shapes(s).value[k],
                            State(c.current.transform + Centering(s), StyleAfter(s, lineThickness, c.current.style)))
  {
    var shapes := Shapes(s).value;
    var prelude := [Push] + Applies(Centering(s)) + Styling(s, lineThickness);
    assert DrawCommands(s, lineThickness).value == prelude + Draws(shapes) + [Pop];
    RunAppend(c, prelude + Draws(shapes), [Pop]);
    RunAppend(c, prelude, Draws(shapes));
    RunPrelude(c, s, lineThickness);
    var c3 := Run(c, prelude).canvas;
    RunDraws(c3, shapes);
    var drawn := Run(c3, Draws(shapes)).marks;
    assert Run(Run(c3, Draws(shapes)).canvas, [Pop]).marks == [];
    assert Run(c, prelude + Draws(shapes)).marks == drawn;
  }

  /** The opening of a draw routine: push, transforms, style; it draws nothing and sets the routine's transform and style. */
  lemma RunPrelude(c: Canvas, s: Structure, lineThickness: real)
    ensures var o := Run(c, [Push] + Applies(Centering(s)) + Styling(s, lineThickness));
      && o.marks == []
      && o.canvas.current == State(c.current.transform + Centering(s), StyleAfter(s, lineThickness, c.current.style))
  {
    var applies := Applies(Centering(s));
    var styling := Styling(s, lineThickness);
    RunAppend(c, [Push] + applies, styling);
    RunAppend(c, [Push], applies);
    var c1 := Run(c, [Push]).canvas;
    assert c1.current == c.current by {
      assert Run(c, [Push]) == Outcome(Step(c, Push).canvas, []);
    }
    assert Run(c, [Push]).marks == [];
    RunApplies(c1, Centering(s));
    var c2 := Run(c1, applies).canvas;
    RunStyling(c2, s, lineThickness);
  }

  /**
   * With no transform in force, LineStructure's segments land exactly on the
   * lattice `drawGrid()` draws: the local lattice moved to the origin (x, y).
   */
  lemma LineMatchesGrid(c: Canvas, s: Structure, lineThickness: real)
    requires s.kind == Line && c.current.transform == []
    ensures var marks := Run(c, DrawCommands(s, lineThickness).value).marks;
      && |marks| == |GridFrom(0, s)|
      && forall k :: 0 <= k < |marks| ==> Placed(marks[k]) == Some(GridFrom(0, s)[k])
  {
    DrawMarks(c, s, lineThickness);
    CenteringIsTranslation(s);
    GridIsMovedLattice(0, s);
    assert c.current.transform + Centering(s) == Centering(s);
  }
}

=== FILE: wrappers.dfy ===
/** Failure-carrying results shared by the modules of this model. */
module Wrappers {

  /** A value that may be absent (JavaScript's `undefined`, or a case the model does not evaluate). */
  datatype Option<+T> = None | Some(value: T)

  /** The outcome of an operation that either returns a value or throws an error message. */
  datatype Result<+R, +E> = Success(value: R) | Failure(error: E)
}
